=== FILE: README.md ===
# Steam Achievements Explorer — a Dafny model of its core

The application searches the Steam catalog and lists a game's achievements. Each
achievement links to a web search for an unlock guide. This project models two parts of it:

- **The client session** (`frontend/src/App.js`). Its seven `useState` fields are held in one
  immutable `Session.State`, together with the debounce timeout that is pending. Every
  asynchronous completion is an `Event`: a keystroke, the 500 ms timeout firing, and the
  success or failure of the search and of the achievements request. `Session.Step` applies
  one event and returns the new state and the HTTP requests it issues. `Session.Run` folds a
  sequence of events in arrival order. `SessionView.Render` gives the render guards of the
  JSX. `GuideLink` builds the achievement-guide URL: the question is UTF-8 encoded and then
  percent-encoded, as `encodeURIComponent` does (`Utf8`, `UriComponent`).
- **The server's data shaping** (`backend/server.py`). `SteamData` covers:
  - the store-search filter: the first twenty items, app items only, and an incomplete app
    item turning the whole search into `[]`;
  - the percentage table: the loop stops at the first malformed entry, and a later entry
    wins over an earlier one with the same name;
  - the achievement list, with its per-field defaults and the `Game <appid>` name fallback.

  `SearchRoute.SearchGames` is the `/api/games/search` route. It validates the query and
  then takes the app-id path or the text path. The Steam exchanges are function-valued
  parameters (`SearchRoute.Steam`).

`EndToEnd` connects the two parts. It maps server replies to client events and proves
whole scenarios, from a keystroke to what is on screen.

`Text` holds both trims. JavaScript `trim` and Python `strip` remove different
characters, so both whitespace sets are spelled out.

The model follows the code as written. In several places a reader might expect more than
the code does; the model keeps the code's behaviour and proves what it actually does:

- **No stale-response guard.** One might expect a last-issued-wins guard for searches;
  the code has none.
  `SessionProperties.StaleSearchResponseWins` shows that a stale response replaces newer
  results.
- **No request tag on the detail reply.** One might expect the detail reply to be
  matched to the game that asked for it; the code merges the header image into whatever
  is selected when the reply arrives. The page makes this safe. While a detail loads it
  offers neither a result card (the grid needs no selection) nor "Back to Search" (the
  detail view needs loading to be over). So the reply always answers the selection that
  requested it. See `SessionProperties.LoadingBlocksNavigation` and
  `SessionProperties.DetailLandsOnRequester`. Which events the page can deliver in a state
  is `SessionView.Enabled`.
- **"No Games Found" uses the untrimmed query.** The render guard at `frontend/src/App.js:290` tests the untrimmed length,
  while the debounce tests the trimmed one. See `SessionProperties.ShortTrimmedQueryShowsNoGames`.
- **No fallback to the internal name.** One might expect the guide to fall back to
  `name` when `displayName` is empty; it does not. The guide question uses `displayName` as is. Its
  game name is `selectedGame.name`. A template renders a missing name as "undefined", but
  with this server's search replies the selected game always has a name. See
  `EndToEnd.GuideNamesTheGame`.
- **Search results carry no image.** The server's search results are `{appid, name}`
  only, and the achievements reply carries no `header_image`.
- **Results are not cleared on every keystroke.** `results` is emptied when the debounce
  timeout fires for a short query, or when a search fails, not as the query is typed.
- **Lengths are counted differently on the two sides.** The client's `length` counts
  UTF-16 code units (`Text.JsLength`) and the server's `len` counts code points, so a
  single emoji is searched by the client and rejected by the server. See
  `EndToEnd.AstralQueryIsSearchedAndRejected`.

## Model

| member | source | states |
|---|---|---|
| Text.Trim | frontend/src/App.js:19 | The trimmed string is never longer than the input. |
| Text.TrimIsCut | frontend/src/App.js:19 | Trimming keeps one contiguous slice of the input. Everything cut off either end is whitespace, and neither end of the result is whitespace. |
| Text.TrimIdempotent | backend/server.py:180-185 | Trimming an already trimmed string changes nothing, so stripping the query again gives the same term. |
| Text.JsTrim | frontend/src/App.js:19 | JavaScript `trim()` never lengthens the query. |
| Text.PyStrip | backend/server.py:180 | Python `strip()` never lengthens the query. |
| Text.JsLength | frontend/src/App.js:19 | JavaScript `length` lies between the code-point count and twice it. |
| Text.JsLengthCountsPoints | frontend/src/App.js:290 | `length` equals the code-point count exactly when every code point lies in the Basic Multilingual Plane. |
| Text.DigitChar | backend/server.py:110 | A single decimal digit maps to a digit character that reads back as the same digit. |
| Text.ShowNat | backend/server.py:110 | `str(n)` of a natural number is all digits with no leading zero. |
| Text.ShowInt | backend/server.py:110 | `str(i)` starts with '-' exactly for negative numbers, followed by the numeral of the magnitude. |
| Text.DigitsValueShowNat | backend/server.py:184-185 | `int(str(n)) == n`: the numeral of an app id parses back to that id. |
| Utf8.EncodeChar | frontend/src/App.js:68 | A code point encodes to 1–4 bytes. The lead byte announces the length, and the remaining bytes are continuation bytes. |
| Utf8.Encode | frontend/src/App.js:68 | UTF-8 encoding takes between one and four bytes per code point; `Utf8.DecodeEncode` determines which bytes. |
| Utf8.DecodeEncodeChar | frontend/src/App.js:68 | Decoding one encoded code point gives it back. |
| Utf8.DecodeEncode | frontend/src/App.js:68 | Decoding the UTF-8 encoding of any string gives the string back. |
| UriComponent.HexDigit | frontend/src/App.js:68 | A nibble is written as an uppercase hex digit. |
| UriComponent.HexValue | frontend/src/App.js:68 | A hex digit of either case reads as a value below 16. |
| UriComponent.HexRoundTrip | frontend/src/App.js:68 | Reading the hex digit written for a nibble gives the nibble. |
| UriComponent.EncodeByte | frontend/src/App.js:68 | An unreserved byte is written as itself. Any other byte becomes `%XY`. Only safe characters appear. |
| UriComponent.EncodeBytes | frontend/src/App.js:68 | Percent-encoding makes the input at most three times longer, and every output character is unreserved, `%` or a hex digit. |
| UriComponent.EncodeUriComponent | frontend/src/App.js:68 | `encodeURIComponent` output consists only of unreserved characters, `%` and uppercase hex digits. |
| UriComponent.DecodeEncodedByte | frontend/src/App.js:68 | Decoding an encoded byte consumes exactly its encoding. |
| UriComponent.DecodeEncodeBytes | frontend/src/App.js:68 | Percent-decoding inverts percent-encoding for any byte string. |
| UriComponent.DecodeEncodeUriComponent | frontend/src/App.js:68 | `decodeURIComponent(encodeURIComponent(s)) == s` for every string. |
| GuideLink.TemplateText | frontend/src/App.js:67 | A template literal renders a present game name as itself and a missing one as "undefined"; `EndToEnd.GuideNamesTheGame` shows the missing case never reaches the link. |
| GuideLink.GuideQuestion | frontend/src/App.js:66-67 | The question embeds the display name and the game name (or "undefined") at fixed positions, quoted. |
| GuideLink.GuideUrl | frontend/src/App.js:66-69 | The URL is the search prefix plus a parameter that decodes exactly to the question and contains no character that could end the `q` parameter. |
| SessionView.GuideFor | frontend/src/App.js:226-231 | Clicking achievement card `i` opens a guide URL whose parameter decodes to that achievement's display name and the selected game's name. |
| Session.ErrorText | frontend/src/App.js:35-37 | The error shown is never empty. It is the server's detail when present and non-empty, else the fallback message. |
| Session.OnQueryChanged | frontend/src/App.js:17-27 | A keystroke issues nothing and moves only the query and the pending timeout. A new value replaces the timeout with one for that value. An unchanged value changes nothing. |
| Session.StartSearch | frontend/src/App.js:29-33 | Starting a search issues exactly one request for the query, turns loading on and clears the error. Results, query and detail side stay as they are. |
| Session.OnTimerElapsed | frontend/src/App.js:18-24 | The timeout searches its query exactly once when the trimmed query is two or more UTF-16 code units long. Otherwise it empties the results and issues nothing. With no pending timeout nothing happens. |
| Session.OnSearchSucceeded | frontend/src/App.js:34-40 | A search response replaces the results with the server's list in its order and ends loading. The error, query and detail side are untouched. |
| Session.OnSearchFailed | frontend/src/App.js:35-39 | A failed search shows a non-empty error, empties the results and ends loading. The detail side is untouched. |
| Session.OnGameSelected | frontend/src/App.js:43-50 | Selecting shows the game at once, clears achievements and the error, starts detail loading and requests the game's app id. The search side is untouched. |
| Session.WithHeaderImage | frontend/src/App.js:53-57 | The merge keeps the previous selection's id and name and adds the header image. From no selection it yields an object holding only the image. |
| Session.OnDetailSucceeded | frontend/src/App.js:51-62 | A detail response sets the achievements (or [] when absent), ends detail loading, and merges a non-empty header image into the current selection. The error and search side are untouched. |
| Session.OnDetailFailed | frontend/src/App.js:59-62 | A failed detail shows a non-empty error and ends detail loading. Selection, achievements and search side stay. |
| Session.OnSelectionCleared | frontend/src/App.js:72-76 | Going back clears selection, achievements and error, and leaves the search side and the loading flag as they are. |
| Session.Step | frontend/src/App.js:17-76 | One event issues at most one request, and only the timeout firing or a selection issues one. |
| Session.Run | frontend/src/App.js:17-76 | Events applied in arrival order issue at most one request each; `SessionProperties.RunAppend` shows the fold composes. |
| SessionView.Render | frontend/src/App.js:118-290 | The result grid shows exactly when nothing is selected and there are results. The detail view shows exactly when a game is selected and its achievements are not loading. "No Games Found" shows exactly when nothing is selected, no search is loading, there are no results and no error, and the untrimmed query is two or more UTF-16 code units long. The searching and achievement-loading indicators follow their flags. So the three blocks never show together. The detail view shows exactly one of the achievement grid and its empty state, the grid exactly when achievements exist. The detail view and its loading indicator exclude each other. The error banner shows exactly when there is an error. |
| SessionProperties.InitialTimerCarriesQuery | frontend/src/App.js:8-27 | On mount the pending timeout reads the empty query, and the screen shows none of the blocks. |
| SessionProperties.StepKeepsTimerOnQuery | frontend/src/App.js:17-27 | Every event keeps the invariant that a pending timeout reads the current query. |
| SessionProperties.RunKeepsTimerOnQuery | frontend/src/App.js:17-27 | Over any event sequence, at most one timeout is pending and it reads the latest query. |
| SessionProperties.RunAppend | frontend/src/App.js:17-76 | Running two event sequences one after the other equals running their concatenation, requests included. |
| SessionProperties.RunPrepend | frontend/src/App.js:17-76 | Running `[e] + rest` is one step followed by the rest. |
| SessionProperties.TypingIssuesNothing | frontend/src/App.js:17-27 | Keystrokes faster than the delay issue no request. They leave the last value as the query and the timeout pending for it (when anything changed), and change nothing else. |
| SessionProperties.DebounceSearchesOnce | frontend/src/App.js:17-27 | A burst of keystrokes and then the timeout issue at most one request. It is a search for the final value. It is issued whenever some keystroke changed the value and the final value's trimmed form is two or more UTF-16 code units long; a shorter final value issues nothing. When no keystroke changed the value, whatever timeout was already pending fires unchanged. |
| SessionProperties.DetailEventsKeepSearch | frontend/src/App.js:43-76 | Selecting, detail responses and going back never change the search side and issue only detail requests. |
| SessionProperties.ClearRestoresResults | frontend/src/App.js:72-76 | Select, any detail events, then back: the exact previous results and query are shown again, with no new search. |
| SessionProperties.SelectShowsNoStaleAchievements | frontend/src/App.js:44-47 | Right after a selection the old achievements are gone and the loading indicator replaces both the detail view and the result grid. |
| SessionProperties.TwoSearchesIssued | frontend/src/App.js:17-33 | A timeout firing, a new query and its timeout firing put two searches in flight, in issue order. |
| SessionProperties.StaleSearchResponseWins | frontend/src/App.js:29-41 | With two searches in flight, the earlier one answering last leaves its results on screen under the newer query. |
| SessionProperties.EnabledRunAppend | frontend/src/App.js:127-214 | A run of events is deliverable exactly when its first part is, and its second part is from where the first leaves the page. |
| SessionProperties.LoadingBlocksNavigation | frontend/src/App.js:127-214 | While achievements load, no card click and no "Back to Search" can happen before the detail reply. Selection, list and loading flag stay, so at most one detail request is in flight. |
| SessionProperties.DetailLandsOnRequester | frontend/src/App.js:43-64 | Select a game, then any deliverable events up to its reply: the reply's list is shown for that game, with the header image merged into it when present. |
| SessionProperties.InitialCoherent | frontend/src/App.js:8-14 | The first render is coherent. |
| SessionProperties.StepKeepsCoherent | frontend/src/App.js:43-76 | Every deliverable event keeps the session coherent: a loading detail has a selection and no list, and achievements are listed only with a selection. |
| SessionProperties.RunKeepsCoherent | frontend/src/App.js:43-76 | Over any deliverable run the session stays coherent. In particular, achievements are never listed with nothing selected. |
| SessionProperties.StepKeepsNamed | frontend/src/App.js:43-57 | With named search replies, every deliverable event keeps every offered and selected game named. The header-image merge keeps the name. |
| SessionProperties.RunKeepsNamed | frontend/src/App.js:43-57 | Over any deliverable run with named search replies, offered and selected games keep their names. |
| SessionProperties.ShortTrimmedQueryShowsNoGames | frontend/src/App.js:290 | A query of two or more UTF-16 code units whose trimmed form is shorter is never searched, yet "No Games Found" shows. |
| SessionProperties.SpaceThenLetterIsSuchAQuery | frontend/src/App.js:19 | " a" is such a query. |
| SteamData.Prefix | backend/server.py:74 | Python's `xs[:n]` is the first `min(n, |xs|)` elements. |
| SteamData.StoreWindow | backend/server.py:71-82 | The loop sees at most twenty items: the first twenty of `items` (none when the key is absent), and none without a 200 reply. |
| SteamData.AppHits | backend/server.py:74-79 | Building the hits succeeds exactly when every app item has both `id` and `name`, and yields at most one hit per item. |
| SteamData.AppPositions | backend/server.py:74-75 | The positions of the app items lie inside the item list. |
| SteamData.AppHitsAtPositions | backend/server.py:75-79 | The j-th hit is built from the j-th app item. |
| SteamData.AppPositionsIncrease | backend/server.py:74-79 | App positions strictly increase, so hits keep the store's order. |
| SteamData.AppPositionsCover | backend/server.py:75 | Every app item has its position among the app positions. |
| SteamData.AppHitsSubsequence | backend/server.py:74-79 | The hits are exactly the app items, in order: one per app item, none from another kind, none dropped. |
| SteamData.SearchSteamGames | backend/server.py:64-85 | The store search returns at most twenty games, and [] when the store does not answer 200. |
| SteamData.UsablePrefix | backend/server.py:126-133 | The percentage loop stores the longest prefix of well-formed entries and stops at the first entry lacking `name` or `percent`. |
| SteamData.PercentTable | backend/server.py:125-133 | Without a 200 percentage reply the table is empty. |
| SteamData.StorePercents | backend/server.py:130-131 | The dictionary loop only adds or overwrites keys, never removes one; `SteamData.StorePercentsLastWins` gives the value each key ends with. |
| SteamData.StorePercentsKeepsOthers | backend/server.py:130-131 | A name no stored entry carries keeps its earlier value. |
| SteamData.StorePercentsLastWins | backend/server.py:130-131 | A name maps to the percent of the last stored entry that carries it. |
| SteamData.PercentTableLastWins | backend/server.py:125-133 | A name is in the table exactly when some stored entry carries it, and its percent is that of the last such entry. |
| SteamData.LastNamed | backend/server.py:130-131 | When some entry carries a name, there is a last entry that carries it. |
| SteamData.ParseAchievements | backend/server.py:136-147 | One achievement per schema entry, in order. A missing field becomes "" (or 0 for `hidden`), and the percent is looked up by name. |
| SteamData.GameNameOf | backend/server.py:110 | The game's name is `gameName` when present, else "Game " followed by the app id. |
| SteamData.GetGameAchievements | backend/server.py:88-157 | The lookup is None exactly when the schema reply fails or has no game. Otherwise it holds the app id, the game's name and the parsed list, empty for an empty schema list. |
| SteamData.UnavailablePercentsLeaveNone | backend/server.py:126-145 | When the percentage reply fails, every achievement is still listed and every percent is None. |
| SteamData.AchievementPercentFromLastEntry | backend/server.py:130-145 | A named achievement gets the percent of the last stored percentage entry of that name, and None when there is no such entry. |
| SearchRoute.SearchGames | backend/server.py:177-194 | An empty query or one under two characters after stripping is a 400 with the fixed detail. A digit query returns one hit for the parsed id, or a 404. Any other query returns the store's app hits (at most twenty) for the stripped term. |
| SearchRoute.AppIdPathIgnoresStore | backend/server.py:184-190 | The app-id path never consults the store search. |
| SearchRoute.TextPathIgnoresLookup | backend/server.py:192-194 | The text path never consults the schema or percentage exchanges. |
| SearchRoute.StrippedQueryAnswersAlike | backend/server.py:180-194 | For every query, surrounding whitespace in Python's sense does not change the reply. |
| EndToEnd.SearchReplyEvent | backend/server.py:187-194 | The client receives the server's list as results in order, each game with an id and name and no image. An error reply becomes a failure carrying its detail. |
| EndToEnd.DetailReplyEvent | backend/server.py:207-216 | The achievements reply gives the client the game's list and no header image, or a 404 detail. |
| EndToEnd.ServerDetailKeepsSelection | frontend/src/App.js:53-57 | Served by this server, a detail reply never changes the selection and always ends detail loading. |
| EndToEnd.TrimSetsDisagree | backend/server.py:180 | "a" followed by U+001C is searched by the client, answered 400 by the server, and shown as the error. |
| EndToEnd.AstralQueryIsSearchedAndRejected | backend/server.py:180-181 | A single U+1F600 is two code units for the client, which searches it, and one code point for the server, which answers 400; the client shows that error. |
| EndToEnd.AstralQueryCountsTwoForNoGames | frontend/src/App.js:290 | With query U+1F600, no selection, no results, no search running and no error, "No Games Found" shows. |
| EndToEnd.EmptyReplyShowsNoGames | frontend/src/App.js:290 | Any query with nothing to trim and at least two code points issues one search, and an empty reply shows "No Games Found" and no error. |
| EndToEnd.NoMatchShowsNoGames | frontend/src/App.js:290 | A query with no match issues one search, and the empty reply shows "No Games Found" and no error. |
| EndToEnd.RejectedSearchShowsDetail | frontend/src/App.js:35-39 | A search rejected with "Rate limited" shows that text, no results and no loading. |
| EndToEnd.PortalScenario | frontend/src/App.js:43-51 | Selecting app 400 and receiving one achievement shows that achievement with its percent. |
| EndToEnd.NoAchievementsIsNotAnError | frontend/src/App.js:226-285 | An empty achievement list shows the empty state, not the error banner. |
| EndToEnd.ServerSearchRepliesAreNamed | backend/server.py:187-194 | Every game in a search reply of this server carries a name. |
| EndToEnd.GuideNamesTheGame | frontend/src/App.js:226-231 | From the first render, after any deliverable run fed by named search replies, an achievement card's guide link names the selected game, never "undefined". |

## Left out

- **Network and the database.**
  - The HTTP exchanges with Steam and between client and server are parameters or events.
  - The MongoDB achievements cache of `get_achievements` (`backend/server.py:199-204,211-214`) is left out. A cache hit would return the stored document.
  - The root message endpoint and the status endpoints (`backend/server.py:161-175`) and the startup and shutdown hooks are not modelled.
- **The store search URL.** The term is put into it without encoding (`backend/server.py:69`). The model passes the term itself to `storeFor`.
- **Exceptions from the Steam client.** A network failure, a bad JSON body or a non-200 status in the store search or the schema exchange makes `search_steam_games` return `[]` or `get_game_achievements` return `None`. Only the non-200 case is modelled; the others take the same path. The percentage exchange is different: its bare `except: pass` (`backend/server.py:126-133`) swallows all three, and the function still returns the list. A failed or non-200 percentage reply leaves the table empty (`SteamData.UnavailablePercentsLeaveNone`). An entry that breaks the loop leaves the table with the entries stored before it (`SteamData.UsablePrefix`).
- **JSON typing.**
  - A JSON `null`, a value of an unexpected type, and pydantic's validation of it are not modelled. A key holds either nothing or a value of the expected type.
  - A falsy but present `game` object (`{}`) is modelled like an absent one, as `if not game_data` treats both alike.
- **Percentages.** They are opaque reals. Nothing computes on them.
- **Display formatting.** `toFixed(1)` and the `Math.min(percent, 100)` bar width are not modelled (`frontend/src/App.js:255,260`).
- **Time.** The 500 ms debounce is an event order, not a clock. `Session.DebounceMillis` records the constant only.
- **Events not gated by the page.** `Session.Step` accepts every event in every state, as the handlers themselves do. The page's gating (`SessionView.Enabled`) is a premise of the lemmas that need it, not part of `Step`. Search replies are never gated: several searches can be in flight.
- **Unmounting.** The effect cleanup also runs on unmount. The model has a single, never-unmounted session.
- **The DOM and React.** Re-renders and `key` handling are not modelled. `handleImageError` hides broken images (`frontend/src/App.js:78-80`), and `window.open` opens the guide link (`frontend/src/App.js:69`); the model stops at the URL.
- **Non-ASCII digits.** Python `str.isdigit` accepts non-ASCII digits. The model treats only ASCII `0`-`9` as digits, so such queries take the text path here. For decimal digits of other scripts `int` parses the app id. For characters such as superscript two ("²²"), `isdigit()` holds but `int()` raises `ValueError`. Nothing in the route catches it, so it answers 500 (`backend/server.py:184-185`). This 500 reply is not modelled.
- **Lone surrogates.** `encodeURIComponent` throws `URIError` on a lone surrogate. Dafny characters are Unicode scalar values, so that input cannot arise.
- **Request content.** `Session.Request` records the query or app id, not the backend URL or the query-string encoding of the search request.

=== FILE: end_to_end.dfy ===
/** The client and the server together: how the server's replies become client events,
    and whole scenarios from typing to rendering. */
module EndToEnd {
  import opened Wrappers
  import Text
  import SteamData
  import SearchRoute
  import opened Session
  import opened SessionView
  import SessionProperties
  import GuideLink

  const DetailNotFound: string := "Game not found or has no achievements"

  /** How the client receives a search reply: the JSON list becomes the results in its
      order (objects with `appid` and `name` only); an error's `detail` becomes the
      failure's detail. */
  function SearchReplyEvent(r: SearchRoute.Reply): (e: Event)
    ensures r.Games? ==> e.SearchSucceeded? && |e.data| == |r.hits|
    ensures r.Games? ==> forall i :: 0 <= i < |r.hits| ==>
      e.data[i] == Game(Some(r.hits[i].appid), Some(r.hits[i].name), None)
    ensures r.HttpError? ==> e == SearchFailed(Some(r.detail))
  {
    match r
    case Games(hits) =>
      SearchSucceeded(seq(|hits|, i requires 0 <= i < |hits| => Game(Some(hits[i].appid), Some(hits[i].name), None)))
    case HttpError(_, detail) => SearchFailed(Some(detail))
  }

  /** How the client receives the achievements route's reply (cache aside): the game's
      achievement list, and never a `header_image`, which the server does not send; or
      a 404 detail when the lookup gave nothing. */
  function DetailReplyEvent(found: Option<SteamData.GameAchievements>): (e: Event)
    ensures found.Some? ==> e == DetailSucceeded(Some(found.value.achievements), None)
    ensures found.None? ==> e == DetailFailed(Some(DetailNotFound))
  {
    match found
    case Some(g) => DetailSucceeded(Some(g.achievements), None)
    case None => DetailFailed(Some(DetailNotFound))
  }

  /** Served by this server, a detail reply never changes the selection, so the
      header-image merge never runs. */
  lemma ServerDetailKeepsSelection(s: State, found: Option<SteamData.GameAchievements>)
    ensures Step(s, DetailReplyEvent(found)).state.selectedGame == s.selectedGame
    ensures !Step(s, DetailReplyEvent(found)).state.achievementsLoading
  {
  }

  /** The client trims with JavaScript's whitespace set and the server strips with
      Python's: for "a" followed by U+001C the client searches, and the server answers
      400, which the client shows as its error. */
  lemma TrimSetsDisagree(s: State, steam: SearchRoute.Steam)
    requires s.timer == Some("a\U{1C}")
    ensures Text.JsLength(Text.JsTrim("a\U{1C}")) >= MinQueryLength
    ensures SearchRoute.SearchGames("a\U{1C}", steam) == SearchRoute.HttpError(400, SearchRoute.TooShortDetail)
    ensures var t := Run(s, [TimerElapsed, SearchReplyEvent(SearchRoute.SearchGames("a\U{1C}", steam))]);
      && t.requests == [SearchRequest("a\U{1C}")]
      && t.state.error == SearchRoute.TooShortDetail
      && t.state.searchResults == []
      && Render(t.state).errorBanner
  {
    var q := "a\U{1C}";
    assert Text.JsTrim(q) == q;
    assert Text.PyStrip(q) == Text.Trim("a", Text.IsPyWhitespace) == "a";
    var reply := SearchReplyEvent(SearchRoute.SearchGames(q, steam));
    assert [TimerElapsed, reply] == [TimerElapsed] + [reply];
    SessionProperties.RunPrepend(s, TimerElapsed, [reply]);
  }

  /** JavaScript counts UTF-16 code units and Python counts code points: a single emoji
      outside the Basic Multilingual Plane is long enough for the client, which searches
      it, and too short for the server, which answers 400; the client shows that error. */
  lemma AstralQueryIsSearchedAndRejected(s: State, steam: SearchRoute.Steam)
    requires s.timer == Some("\U{1F600}")
    ensures Text.JsLength(Text.JsTrim("\U{1F600}")) >= MinQueryLength
    ensures SearchRoute.SearchGames("\U{1F600}", steam) == SearchRoute.HttpError(400, SearchRoute.TooShortDetail)
    ensures var t := Run(s, [TimerElapsed, SearchReplyEvent(SearchRoute.SearchGames("\U{1F600}", steam))]);
      && t.requests == [SearchRequest("\U{1F600}")]
      && t.state.error == SearchRoute.TooShortDetail
      && Render(t.state).errorBanner
  {
    var q := "\U{1F600}";
    assert Text.JsTrim(q) == q;
    assert Text.PyStrip(q) == q;
    assert Text.JsLength(q) == Text.JsLength([]) + 2 by {
      assert q[..|q| - 1] == [];
    }
    var reply := SearchReplyEvent(SearchRoute.SearchGames(q, steam));
    assert [TimerElapsed, reply] == [TimerElapsed] + [reply];
    SessionProperties.RunPrepend(s, TimerElapsed, [reply]);
  }

  /** With that one-emoji query, no selection, no results, no search running and no error,
      "No Games Found" shows: its length is two code units. */
  lemma AstralQueryCountsTwoForNoGames(s: State)
    requires s.searchQuery == "\U{1F600}" && s.selectedGame.None?
    requires !s.loading && s.searchResults == [] && s.error == ""
    ensures Render(s).noGames
  {
    assert s.searchQuery[..0] == [];
  }

  /** A query with no match: the server's empty list leads to "No Games Found", not to
      an error. Stated for any query with nothing to trim, then for "zzzzznotagame". */
  lemma EmptyReplyShowsNoGames(q: string)
    requires Text.JsTrim(q) == q && |q| >= MinQueryLength
    ensures var t := Run(Initial, [QueryChanged(q), TimerElapsed, SearchSucceeded([])]);
      && t.requests == [SearchRequest(q)]
      && Render(t.state).noGames && !Render(t.state).errorBanner
  {
    assert Text.JsLength(q) >= |q|;
    var s1 := Step(Initial, QueryChanged(q)).state;
    assert s1 == Initial.(searchQuery := q, timer := Some(q));
    var t2 := Step(s1, TimerElapsed);
    assert t2.requests == [SearchRequest(q)];
    assert [QueryChanged(q), TimerElapsed, SearchSucceeded([])] == [QueryChanged(q)] + ([TimerElapsed] + [SearchSucceeded([])]);
    SessionProperties.RunPrepend(Initial, QueryChanged(q), [TimerElapsed] + [SearchSucceeded([])]);
    SessionProperties.RunPrepend(s1, TimerElapsed, [SearchSucceeded([])]);
    SessionProperties.RunPrepend(t2.state, SearchSucceeded([]), []);
  }

  lemma NoMatchShowsNoGames()
    ensures var t := Run(Initial, [QueryChanged("zzzzznotagame"), TimerElapsed, SearchSucceeded([])]);
      && t.requests == [SearchRequest("zzzzznotagame")]
      && Render(t.state).noGames && !Render(t.state).errorBanner
  {
    assert Text.JsTrim("zzzzznotagame") == "zzzzznotagame";
    EmptyReplyShowsNoGames("zzzzznotagame");
  }

  /** A rejected search shows the server's detail, with no results and loading over. */
  lemma RejectedSearchShowsDetail(s: State)
    ensures var t := Step(s, SearchFailed(Some("Rate limited"))).state;
      && t.error == "Rate limited" && t.searchResults == [] && !t.loading
      && Render(t).errorBanner && !Render(t).resultGrid && !Render(t).noGames
  {
  }

  /** Selecting Portal (app 400) and receiving its one achievement: the detail view shows
      that achievement with its percent. */
  lemma PortalScenario(s: State, ach: Achievement)
    requires ach.name == "ach1" && ach.displayName == "Lab Rat" && ach.percent == Some(95.2)
    ensures var portal := Game(Some(400), Some("Portal"), None);
      var t := Run(s, [GameSelected(portal), DetailSucceeded(Some([ach]), None)]);
      && t.requests == [DetailRequest(Some(400))]
      && t.state.selectedGame.Some? && t.state.selectedGame.value.appid == Some(400)
      && |t.state.achievements| == 1 && t.state.achievements[0].percent == Some(95.2)
      && Render(t.state).achievementGrid
  {
    var portal := Game(Some(400), Some("Portal"), None);
    assert [GameSelected(portal), DetailSucceeded(Some([ach]), None)] == [GameSelected(portal)] + [DetailSucceeded(Some([ach]), None)];
    SessionProperties.RunPrepend(s, GameSelected(portal), [DetailSucceeded(Some([ach]), None)]);
  }

  /** A game without achievements gets the empty state, not the error banner. */
  lemma NoAchievementsIsNotAnError(s: State, game: Game)
    ensures var t := Run(s, [GameSelected(game), DetailSucceeded(Some([]), None)]);
      && Render(t.state).noAchievements && !Render(t.state).errorBanner && t.state.error == ""
  {
    assert [GameSelected(game), DetailSucceeded(Some([]), None)] == [GameSelected(game)] + [DetailSucceeded(Some([]), None)];
    SessionProperties.RunPrepend(s, GameSelected(game), [DetailSucceeded(Some([]), None)]);
  }

  /** Every game in a search reply of this server has a `name`. */
  lemma ServerSearchRepliesAreNamed(r: SearchRoute.Reply)
    ensures SessionProperties.NamedReply(SearchReplyEvent(r))
  {
  }

  /** Fed by this server's search replies, the guide link always names the selected game:
      from the first render, after any run of events the page offers, an achievement card
      links to the question with the game's `name`, never the template's "undefined". */
  lemma GuideNamesTheGame(events: seq<Event>, i: nat)
    requires EnabledRun(Initial, events)
    requires forall j :: 0 <= j < |events| ==> SessionProperties.NamedReply(events[j])
    requires Render(Run(Initial, events).state).achievementGrid
    requires i < |Run(Initial, events).state.achievements|
    ensures var t := Run(Initial, events).state;
      && t.selectedGame.value.name.Some?
      && GuideFor(t, i) == GuideLink.GuideUrl(t.achievements[i].displayName, Some(t.selectedGame.value.name.value))
  {
    SessionProperties.RunKeepsNamed(Initial, events);
  }
}

=== FILE: guide_link.dfy ===
/** The achievement guide link (`openAchievementGuide` in frontend/src/App.js): a web
    search URL whose single `q` parameter is the percent-encoded question
    `how to get "<displayName>" achievement in "<gameName>"`. Opening the URL in a new
    window is the caller's effect and is not part of this module. */
module GuideLink {
  import opened Wrappers
  import opened UriComponent

  const SearchPrefix: string := "https://www.google.com/search?q="

  /** How a JavaScript template literal renders a value that may be undefined. */
  function TemplateText(v: Option<string>): (text: string)
    ensures v.Some? ==> text == v.value
    ensures v.None? ==> text == "undefined"
  {
    match v
    case Some(s) => s
    case None => "undefined"
  }

  /** The natural-language question embedded in the link. */
  function GuideQuestion(displayName: string, gameName: Option<string>): (q: string)
    ensures |q| == |displayName| + |TemplateText(gameName)| + 31
    ensures q[12..12 + |displayName|] == displayName
    ensures q[|q| - 1 - |TemplateText(gameName)|..|q| - 1] == TemplateText(gameName)
  {
    "how to get \"" + displayName + "\" achievement in \"" + TemplateText(gameName) + "\""
  }

  /** A character that cannot end the `q` parameter, start another, or be read as a space. */
  predicate StaysInParameter(c: char) {
    c != '&' && c != '#' && c != '=' && c != ' ' && c != '"' && c != '+'
  }

  /** Every character percent-encoding can produce stays inside the parameter. */
  lemma EncodedStaysInParameter(param: string)
    requires forall i :: 0 <= i < |param| ==> IsEncodedChar(param[i]) || IsUpperHexDigit(param[i])
    ensures forall i :: 0 <= i < |param| ==> StaysInParameter(param[i])
  {
  }

  /** The guide URL: the fixed search prefix followed by the encoded question. Decoding
      the parameter gives back exactly the question, and the parameter holds no
      character that could end it or start another. */
  function GuideUrl(displayName: string, gameName: Option<string>): (url: string)
    ensures |url| >= |SearchPrefix| && url[..|SearchPrefix|] == SearchPrefix
    ensures DecodeUriComponent(url[|SearchPrefix|..]) == Some(GuideQuestion(displayName, gameName))
    ensures forall i :: |SearchPrefix| <= i < |url| ==> StaysInParameter(url[i])
  {
    var param := EncodeUriComponent(GuideQuestion(displayName, gameName));
    DecodeEncodeUriComponent(GuideQuestion(displayName, gameName));
    EncodedStaysInParameter(param);
    var url := SearchPrefix + param;
    assert url[|SearchPrefix|..] == param;
    url
  }
}

=== FILE: search_route.dfy ===
/** The `GET /api/games/search` route (`search_games` in backend/server.py): query
    validation, then either the app-id lookup or the store text search. The two Steam
    exchanges are supplied as functions from what is asked to what comes back. */
module SearchRoute {
  import opened Wrappers
  import Text
  import opened SteamData

  const TooShortDetail: string := "Query must be at least 2 characters"
  const NotFoundDetail: string := "Game not found"

  /** A JSON list of `{appid, name}` objects, or an `HTTPException`. */
  datatype Reply = Games(hits: seq<GameHit>) | HttpError(status: int, detail: string)

  /** The Steam side of the route: the schema and percentage exchanges for an app id,
      and the store search for a term. */
  datatype Steam = Steam(
    schemaFor: int -> SchemaResponse,
    percentsFor: int -> PercentResponse,
    storeFor: string -> StoreResponse)

  /** `get_game_achievements(appid)` against the given Steam. */
  function LookupApp(steam: Steam, appid: int): Option<GameAchievements> {
    GetGameAchievements(appid, steam.schemaFor(appid), steam.percentsFor(appid))
  }

  /** True when the stripped query takes the app-id path. */
  predicate IsAppIdQuery(q: string) {
    |Text.PyStrip(q)| >= 2 && Text.IsDigits(Text.PyStrip(q))
  }

  function SearchGames(q: string, steam: Steam): (r: Reply)
    // an empty query, or one under two characters once stripped, is a 400
    ensures r.HttpError? && r.status == 400 <==> |q| == 0 || |Text.PyStrip(q)| < 2
    ensures r.HttpError? && r.status == 400 ==> r.detail == TooShortDetail
    // the app-id path answers one hit for the parsed id, or 404
    ensures IsAppIdQuery(q) ==>
      var appid := Text.DigitsValue(Text.PyStrip(q));
      && (r.Games? <==> LookupApp(steam, appid).Some?)
      && (r.Games? ==> r.hits == [GameHit(appid, LookupApp(steam, appid).value.gameName)])
      && (r.HttpError? ==> r == HttpError(404, NotFoundDetail))
    // the text path always answers a list: the store's app hits for the stripped term
    ensures |Text.PyStrip(q)| >= 2 && !IsAppIdQuery(q) ==>
      r.Games? && r.hits == SearchSteamGames(steam.storeFor(Text.PyStrip(q))) && |r.hits| <= MaxStoreResults
  {
    var term := Text.PyStrip(q);
    if |q| == 0 || |term| < 2 then HttpError(400, TooShortDetail)
    else if Text.IsDigits(term) then
      var appid := Text.DigitsValue(term);
      match LookupApp(steam, appid)
      case Some(found) => Games([GameHit(appid, found.gameName)])
      case None => HttpError(404, NotFoundDetail)
    else Games(SearchSteamGames(steam.storeFor(term)))
  }

  /** The app-id path never consults the store: two Steams that differ only in their
      store search give the same reply. */
  lemma AppIdPathIgnoresStore(q: string, steam: Steam, store: string -> StoreResponse)
    requires IsAppIdQuery(q)
    ensures SearchGames(q, steam) == SearchGames(q, steam.(storeFor := store))
  {
  }

  /** The text path never consults the schema or percentage exchanges. */
  lemma TextPathIgnoresLookup(q: string, steam: Steam, schemaFor: int -> SchemaResponse, percentsFor: int -> PercentResponse)
    requires !IsAppIdQuery(q)
    ensures SearchGames(q, steam) == SearchGames(q, steam.(schemaFor := schemaFor, percentsFor := percentsFor))
  {
  }

  /** Surrounding whitespace, in Python's sense, does not change the reply. */
  lemma StrippedQueryAnswersAlike(q: string, steam: Steam)
    ensures SearchGames(q, steam) == SearchGames(Text.PyStrip(q), steam)
  {
    Text.TrimIdempotent(q, Text.IsPyWhitespace);
  }
}

=== FILE: session.dfy ===
/** The client session of frontend/src/App.js as an immutable state and one pure
    transition per event. Asynchronous completions (the debounce timeout, the two
    HTTP responses) are events of their own, applied to whatever the state is when
    they arrive; a transition returns the new state and the requests it issues. */
module Session {
  import opened Wrappers
  import Text
  import SteamData

  /** Achievements arrive in the server's `Achievement` shape. */
  type Achievement = SteamData.Achievement

  /** A game object as the client holds it; a key the object lacks is None. */
  datatype Game = Game(appid: Option<int>, name: Option<string>, headerImage: Option<string>)

  /** The seven `useState` fields, plus the debounce timeout the effect has scheduled
      and not yet fired or cleared, with the query value its callback reads. */
  datatype State = State(
    searchQuery: string,
    searchResults: seq<Game>,
    selectedGame: Option<Game>,
    achievements: seq<Achievement>,
    loading: bool,
    achievementsLoading: bool,
    error: string,
    timer: Option<string>)

  /** The debounce delay in milliseconds; the model orders events and does not keep time. */
  const DebounceMillis: nat := 500
  /** The shortest trimmed query that is searched. */
  const MinQueryLength: nat := 2
  const SearchErrorFallback: string := "Error searching games"
  const DetailErrorFallback: string := "Error loading achievements"

  /** The first render: every field at its `useState` default, and the mount run of the
      effect has scheduled a timeout for the empty query. */
  const Initial: State := State("", [], None, [], false, false, "", Some(""))

  /** An HTTP request the client issues: the search for a query, or the achievements of
      an app id (`undefined` when the game object has none). */
  datatype Request = SearchRequest(query: string) | DetailRequest(appid: Option<int>)

  datatype Event =
    | QueryChanged(text: string)
    | TimerElapsed
    | SearchSucceeded(data: seq<Game>)
    | SearchFailed(detail: Option<string>)
    | GameSelected(game: Game)
    | DetailSucceeded(list: Option<seq<Achievement>>, headerImage: Option<string>)
    | DetailFailed(detail: Option<string>)
    | SelectionCleared

  datatype Transition = Transition(state: State, requests: seq<Request>)

  /** The fields the search side owns are equal in `a` and `b`. */
  predicate SameSearch(a: State, b: State) {
    && a.searchQuery == b.searchQuery && a.searchResults == b.searchResults
    && a.loading == b.loading && a.timer == b.timer
  }

  /** The fields the detail side owns are equal in `a` and `b`. */
  predicate SameDetail(a: State, b: State) {
    a.selectedGame == b.selectedGame && a.achievements == b.achievements && a.achievementsLoading == b.achievementsLoading
  }

  /** `err.response?.data?.detail || fallback`: an absent or empty detail gives the fallback. */
  function ErrorText(detail: Option<string>, fallback: string): (msg: string)
    requires fallback != ""
    ensures msg != ""
    ensures detail.Some? && detail.value != "" ==> msg == detail.value
    ensures detail.None? || detail.value == "" ==> msg == fallback
  {
    match detail
    case Some(d) => if d != "" then d else fallback
    case None => fallback
  }

  /** `setSearchQuery`: a new value re-runs the effect, whose cleanup clears the pending
      timeout and which schedules one for the new value; the same value is a React
      bail-out that changes nothing. */
  function OnQueryChanged(s: State, text: string): (t: Transition)
    ensures t.requests == []
    ensures t.state.searchQuery == text
    ensures text != s.searchQuery ==> t.state.timer == Some(text)
    ensures text == s.searchQuery ==> t.state == s
    ensures t.state.searchResults == s.searchResults && t.state.loading == s.loading
    ensures t.state.error == s.error && SameDetail(t.state, s)
  {
    if text == s.searchQuery then Transition(s, [])
    else Transition(s.(searchQuery := text, timer := Some(text)), [])
  }

  /** `searchGames`, up to its `await`: loading on, error cleared, one request. */
  function StartSearch(s: State, query: string): (t: Transition)
    ensures t.requests == [SearchRequest(query)]
    ensures t.state.loading && t.state.error == ""
    ensures t.state.searchQuery == s.searchQuery && t.state.searchResults == s.searchResults
    ensures t.state.timer == s.timer && SameDetail(t.state, s)
  {
    Transition(s.(loading := true, error := ""), [SearchRequest(query)])
  }

  /** The debounce timeout fires: a query of at least two characters once trimmed is
      searched, exactly once; anything shorter empties the results and issues nothing.
      Without a pending timeout nothing can fire. */
  function OnTimerElapsed(s: State): (t: Transition)
    ensures s.timer.None? ==> t == Transition(s, [])
    ensures s.timer.Some? ==> t.state.timer.None? && t.state.searchQuery == s.searchQuery && SameDetail(t.state, s)
    ensures s.timer.Some? && Text.JsLength(Text.JsTrim(s.timer.value)) >= MinQueryLength ==>
      && t.requests == [SearchRequest(s.timer.value)]
      && t.state.loading && t.state.error == "" && t.state.searchResults == s.searchResults
    ensures s.timer.Some? && Text.JsLength(Text.JsTrim(s.timer.value)) < MinQueryLength ==>
      && t.requests == [] && t.state.searchResults == []
      && t.state.loading == s.loading && t.state.error == s.error
  {
    match s.timer
    case None => Transition(s, [])
    case Some(query) =>
      var fired := s.(timer := None);
      if Text.JsLength(Text.JsTrim(query)) >= MinQueryLength then StartSearch(fired, query)
      else Transition(fired.(searchResults := []), [])
  }

  /** The search response arrives: results replaced by the response in its order, loading off. */
  function OnSearchSucceeded(s: State, data: seq<Game>): (t: Transition)
    ensures t.requests == []
    ensures t.state.searchResults == data && !t.state.loading
    ensures t.state.error == s.error && t.state.searchQuery == s.searchQuery && t.state.timer == s.timer
    ensures SameDetail(t.state, s)
  {
    Transition(s.(searchResults := data, loading := false), [])
  }

  /** The search request fails: the detail (or the fallback) shown, results emptied, loading off. */
  function OnSearchFailed(s: State, detail: Option<string>): (t: Transition)
    ensures t.requests == []
    ensures t.state.error == ErrorText(detail, SearchErrorFallback) && t.state.error != ""
    ensures t.state.searchResults == [] && !t.state.loading
    ensures t.state.searchQuery == s.searchQuery && t.state.timer == s.timer && SameDetail(t.state, s)
  {
    Transition(s.(error := ErrorText(detail, SearchErrorFallback), searchResults := [], loading := false), [])
  }

  /** `selectGame`, up to its `await`: the game selected at once, previous achievements
      and error cleared, the detail loading, one request for the game's app id. */
  function OnGameSelected(s: State, game: Game): (t: Transition)
    ensures t.requests == [DetailRequest(game.appid)]
    ensures t.state.selectedGame == Some(game) && t.state.achievements == []
    ensures t.state.achievementsLoading && t.state.error == ""
    ensures SameSearch(t.state, s)
  {
    Transition(s.(selectedGame := Some(game), achievementsLoading := true, error := "", achievements := []),
               [DetailRequest(game.appid)])
  }

  /** The functional update `prev => ({...prev, header_image})`: spreading a null
      selection contributes no keys. */
  function WithHeaderImage(prev: Option<Game>, image: string): (g: Game)
    ensures g.headerImage == Some(image)
    ensures prev.Some? ==> g.appid == prev.value.appid && g.name == prev.value.name
    ensures prev.None? ==> g.appid.None? && g.name.None?
  {
    match prev
    case Some(p) => p.(headerImage := Some(image))
    case None => Game(None, None, Some(image))
  }

  /** The detail response arrives: achievements become the response list (or [] when it
      has none), a non-empty `header_image` is merged into whatever is selected NOW, and
      the detail stops loading. Nothing records which selection the response was for. */
  function OnDetailSucceeded(s: State, list: Option<seq<Achievement>>, headerImage: Option<string>): (t: Transition)
    ensures t.requests == []
    ensures t.state.achievements == list.UnwrapOr([]) && !t.state.achievementsLoading
    ensures headerImage.Some? && headerImage.value != "" ==>
      t.state.selectedGame == Some(WithHeaderImage(s.selectedGame, headerImage.value))
    ensures headerImage.None? || headerImage.value == "" ==> t.state.selectedGame == s.selectedGame
    ensures t.state.error == s.error && SameSearch(t.state, s)
  {
    var withList := s.(achievements := list.UnwrapOr([]));
    var merged :=
      if headerImage.Some? && headerImage.value != ""
      then withList.(selectedGame := Some(WithHeaderImage(s.selectedGame, headerImage.value)))
      else withList;
    Transition(merged.(achievementsLoading := false), [])
  }

  /** The detail request fails: the detail (or the fallback) shown, the detail stops
      loading; achievements and selection stay as they are. */
  function OnDetailFailed(s: State, detail: Option<string>): (t: Transition)
    ensures t.requests == []
    ensures t.state.error == ErrorText(detail, DetailErrorFallback) && t.state.error != ""
    ensures !t.state.achievementsLoading
    ensures t.state.selectedGame == s.selectedGame && t.state.achievements == s.achievements
    ensures SameSearch(t.state, s)
  {
    Transition(s.(error := ErrorText(detail, DetailErrorFallback), achievementsLoading := false), [])
  }

  /** `clearSelection`: back to the search, with the selection, achievements and error
      cleared and the search side untouched. */
  function OnSelectionCleared(s: State): (t: Transition)
    ensures t.requests == []
    ensures t.state.selectedGame.None? && t.state.achievements == [] && t.state.error == ""
    ensures t.state.achievementsLoading == s.achievementsLoading
    ensures SameSearch(t.state, s)
  {
    Transition(s.(selectedGame := None, achievements := [], error := ""), [])
  }

  /** One event: at most one request, and only the timeout or a selection issues one. */
  function Step(s: State, e: Event): (t: Transition)
    ensures |t.requests| <= 1
    ensures t.requests != [] ==> e.TimerElapsed? || e.GameSelected?
  {
    match e
    case QueryChanged(text) => OnQueryChanged(s, text)
    case TimerElapsed => OnTimerElapsed(s)
    case SearchSucceeded(data) => OnSearchSucceeded(s, data)
    case SearchFailed(detail) => OnSearchFailed(s, detail)
    case GameSelected(game) => OnGameSelected(s, game)
    case DetailSucceeded(list, image) => OnDetailSucceeded(s, list, image)
    case DetailFailed(detail) => OnDetailFailed(s, detail)
    case SelectionCleared => OnSelectionCleared(s)
  }

  /** Events applied in arrival order; the requests issued, in order. */
  function Run(s: State, events: seq<Event>): (t: Transition)
    ensures |t.requests| <= |events|
    decreases |events|
  {
    if |events| == 0 then Transition(s, [])
    else
      var first := Step(s, events[0]);
      var rest := Run(first.state, events[1..]);
      Transition(rest.state, first.requests + rest.requests)
  }
}

=== FILE: session_properties.dfy ===
/** Properties of event sequences in the client session: the debounce, the independence
    of the search and detail sides, the consequences of having no guard against stale
    search responses, and what the page's gating of clicks guarantees for the detail. */
module SessionProperties {
  import opened Wrappers
  import Text
  import opened Session
  import opened SessionView

  /** A pending debounce timeout always carries the current query. */
  predicate TimerCarriesQuery(s: State) {
    s.timer.Some? ==> s.timer.value == s.searchQuery
  }

  lemma InitialTimerCarriesQuery()
    ensures TimerCarriesQuery(Initial)
    ensures Render(Initial) == Screen(false, false, false, false, false, false, false, false)
  {
  }

  /** Every event keeps the pending timeout on the latest query. */
  lemma StepKeepsTimerOnQuery(s: State, e: Event)
    requires TimerCarriesQuery(s)
    ensures TimerCarriesQuery(Step(s, e).state)
  {
  }

  /** One unfolding of `Run`. */
  lemma RunUnfold(s: State, events: seq<Event>)
    requires |events| > 0
    ensures var first := Step(s, events[0]);
      var rest := Run(first.state, events[1..]);
      Run(s, events).state == rest.state && Run(s, events).requests == first.requests + rest.requests
  {
  }

  /** Running `a` then `b` is running `a + b`. */
  lemma {:induction false} RunAppend(s: State, a: seq<Event>, b: seq<Event>)
    ensures Run(s, a + b).state == Run(Run(s, a).state, b).state
    ensures Run(s, a + b).requests == Run(s, a).requests + Run(Run(s, a).state, b).requests
    decreases |a|
  {
    if |a| == 0 {
      assert a + b == b;
    } else {
      var first := Step(s, a[0]);
      assert (a + b)[0] == a[0];
      assert (a + b)[1..] == a[1..] + b;
      RunUnfold(s, a + b);
      RunUnfold(s, a);
      RunAppend(first.state, a[1..], b);
    }
  }

  /** Running `[e] + rest` is one step, then the rest. */
  lemma RunPrepend(s: State, e: Event, rest: seq<Event>)
    ensures Run(s, [e] + rest).state == Run(Step(s, e).state, rest).state
    ensures Run(s, [e] + rest).requests == Step(s, e).requests + Run(Step(s, e).state, rest).requests
  {
    assert ([e] + rest)[1..] == rest;
  }

  /** Over any event sequence, at most one timeout is pending and it reads the latest query. */
  lemma {:induction false} RunKeepsTimerOnQuery(s: State, events: seq<Event>)
    requires TimerCarriesQuery(s)
    ensures TimerCarriesQuery(Run(s, events).state)
    decreases |events|
  {
    if |events| > 0 {
      StepKeepsTimerOnQuery(s, events[0]);
      RunKeepsTimerOnQuery(Step(s, events[0]).state, events[1..]);
    }
  }

  /** Keystrokes, one `QueryChanged` per value typed. */
  function Typing(texts: seq<string>): seq<Event> {
    seq(|texts|, i requires 0 <= i < |texts| => QueryChanged(texts[i]))
  }

  /** Typing faster than the debounce delay issues no request, leaves the query at the
      last value typed, and (when anything changed) leaves one timeout pending for it;
      nothing else in the state moves. */
  lemma {:induction false} TypingIssuesNothing(s: State, texts: seq<string>)
    requires |texts| > 0 && TimerCarriesQuery(s)
    ensures var t := Run(s, Typing(texts));
      && t.requests == []
      && t.state.searchQuery == texts[|texts| - 1]
      && TimerCarriesQuery(t.state)
      && ((forall i :: 0 <= i < |texts| ==> texts[i] == s.searchQuery) ==> t.state == s)
      && ((exists i :: 0 <= i < |texts| && texts[i] != s.searchQuery) ==> t.state.timer == Some(texts[|texts| - 1]))
      && t.state.searchResults == s.searchResults && t.state.loading == s.loading
      && t.state.error == s.error && SameDetail(t.state, s)
    decreases |texts|
  {
    var first := OnQueryChanged(s, texts[0]).state;
    var tail := texts[1..];
    assert Typing(texts)[1..] == Typing(tail);
    if |texts| > 1 {
      TypingIssuesNothing(first, tail);
      var t := Run(s, Typing(texts));
      assert t.state == Run(first, Typing(tail)).state;
      if forall j :: 0 <= j < |tail| ==> tail[j] == first.searchQuery {
        assert t.state == first;
        assert texts[|texts| - 1] == tail[|tail| - 1] == first.searchQuery == texts[0];
        if texts[0] == s.searchQuery {
          forall i | 0 <= i < |texts|
            ensures texts[i] == s.searchQuery
          {
            if i > 0 {
              assert texts[i] == tail[i - 1];
            }
          }
        }
      } else {
        var j :| 0 <= j < |tail| && tail[j] != first.searchQuery;
        if texts[0] == s.searchQuery {
          assert texts[j + 1] == tail[j];
        }
        assert texts[|texts| - 1] == tail[|tail| - 1];
      }
    }
  }

  /** A burst of keystrokes followed by the timeout issues at most one request, a search
      for the last value typed; it issues exactly that one when the value changed and is
      long enough once trimmed, and none for a shorter value. When no keystroke changed
      the value, the timeout that was already pending fires just as it would have. */
  lemma DebounceSearchesOnce(s: State, texts: seq<string>)
    requires |texts| > 0 && TimerCarriesQuery(s)
    ensures var last := texts[|texts| - 1];
      var t := Run(s, Typing(texts) + [TimerElapsed]);
      && |t.requests| <= 1
      && (t.requests != [] ==> t.requests == [SearchRequest(last)])
      && (Text.JsLength(Text.JsTrim(last)) < MinQueryLength ==> t.requests == [])
      && ((exists i :: 0 <= i < |texts| && texts[i] != s.searchQuery) && Text.JsLength(Text.JsTrim(last)) >= MinQueryLength
          ==> t.requests == [SearchRequest(last)])
      && ((forall i :: 0 <= i < |texts| ==> texts[i] == s.searchQuery) ==> t.requests == Step(s, TimerElapsed).requests)
  {
    TypingIssuesNothing(s, texts);
    RunAppend(s, Typing(texts), [TimerElapsed]);
  }

  /** Events that belong to the detail side. */
  predicate IsDetailEvent(e: Event) {
    e.GameSelected? || e.DetailSucceeded? || e.DetailFailed? || e.SelectionCleared?
  }

  /** Selecting, receiving details and going back never touch the search side, and issue
      only detail requests. */
  lemma {:induction false} DetailEventsKeepSearch(s: State, events: seq<Event>)
    requires forall i :: 0 <= i < |events| ==> IsDetailEvent(events[i])
    ensures SameSearch(Run(s, events).state, s)
    ensures forall i :: 0 <= i < |Run(s, events).requests| ==> Run(s, events).requests[i].DetailRequest?
    decreases |events|
  {
    if |events| > 0 {
      DetailEventsKeepSearch(Step(s, events[0]).state, events[1..]);
    }
  }

  /** Going back after a selection, whatever detail responses came in between, shows the
      results exactly as they were before the selection, without a new search. */
  lemma ClearRestoresResults(s: State, game: Game, between: seq<Event>)
    requires forall i :: 0 <= i < |between| ==> IsDetailEvent(between[i])
    ensures var t := Run(s, [GameSelected(game)] + between + [SelectionCleared]);
      && t.state.searchResults == s.searchResults
      && t.state.searchQuery == s.searchQuery
      && t.state.selectedGame.None? && t.state.achievements == [] && t.state.error == ""
      && (Render(t.state).resultGrid <==> |s.searchResults| > 0)
      && forall i :: 0 <= i < |t.requests| ==> t.requests[i].SearchRequest? == false
  {
    var events := [GameSelected(game)] + between + [SelectionCleared];
    forall i | 0 <= i < |events|
      ensures IsDetailEvent(events[i])
    {
      if 0 < i < |events| - 1 {
        assert events[i] == between[i - 1];
      }
    }
    DetailEventsKeepSearch(s, events);
    RunAppend(s, [GameSelected(game)] + between, [SelectionCleared]);
  }

  /** Selecting a game hides the previous achievements before any response: the list is
      empty, the detail view is replaced by its loading indicator. */
  lemma SelectShowsNoStaleAchievements(s: State, game: Game)
    ensures var v := Render(Step(s, GameSelected(game)).state);
      && Step(s, GameSelected(game)).state.achievements == []
      && v.loadingAchievements && !v.detail && !v.achievementGrid && !v.resultGrid
  {
  }

  /** There is no last-request-wins guard: when two searches are in flight and the
      earlier one answers last, its stale results replace the newer ones, although the
      query shows the newer text. */
  lemma StaleSearchResponseWins(s: State, second: string, newer: seq<Game>, older: seq<Game>)
    requires s.timer.Some? && Text.JsLength(Text.JsTrim(s.timer.value)) >= MinQueryLength
    requires second != s.searchQuery && Text.JsLength(Text.JsTrim(second)) >= MinQueryLength
    ensures var t := Run(s, [TimerElapsed, QueryChanged(second), TimerElapsed] + [SearchSucceeded(newer), SearchSucceeded(older)]);
      && t.requests == [SearchRequest(s.timer.value), SearchRequest(second)]
      && t.state.searchQuery == second
      && t.state.searchResults == older
  {
    var issue := [TimerElapsed, QueryChanged(second), TimerElapsed];
    var answer := [SearchSucceeded(newer), SearchSucceeded(older)];
    RunAppend(s, issue, answer);
    TwoSearchesIssued(s, second);
    var mid := Run(s, issue).state;
    RunPrepend(mid, SearchSucceeded(newer), [SearchSucceeded(older)]);
    assert answer == [SearchSucceeded(newer)] + [SearchSucceeded(older)];
  }

  /** The timeout fires, the query changes, the new timeout fires: two searches in flight. */
  lemma TwoSearchesIssued(s: State, second: string)
    requires s.timer.Some? && Text.JsLength(Text.JsTrim(s.timer.value)) >= MinQueryLength
    requires second != s.searchQuery && Text.JsLength(Text.JsTrim(second)) >= MinQueryLength
    ensures var t := Run(s, [TimerElapsed, QueryChanged(second), TimerElapsed]);
      && t.requests == [SearchRequest(s.timer.value), SearchRequest(second)]
      && t.state.searchQuery == second
  {
    var s1 := Step(s, TimerElapsed).state;
    var s2 := Step(s1, QueryChanged(second)).state;
    assert [TimerElapsed, QueryChanged(second), TimerElapsed] == [TimerElapsed] + ([QueryChanged(second)] + [TimerElapsed]);
    RunPrepend(s, TimerElapsed, [QueryChanged(second)] + [TimerElapsed]);
    RunPrepend(s1, QueryChanged(second), [TimerElapsed]);
  }

  /** A reply to the detail request. */
  predicate IsDetailReply(e: Event) {
    e.DetailSucceeded? || e.DetailFailed?
  }

  /** Splitting an enabled run: `a + b` is enabled exactly when `a` is, and `b` is from
      where `a` leaves the session. */
  lemma {:induction false} EnabledRunAppend(s: State, a: seq<Event>, b: seq<Event>)
    ensures EnabledRun(s, a + b) <==> EnabledRun(s, a) && EnabledRun(Run(s, a).state, b)
    decreases |a|
  {
    if |a| == 0 {
      assert a + b == b;
    } else {
      assert (a + b)[0] == a[0];
      assert (a + b)[1..] == a[1..] + b;
      RunUnfold(s, a);
      EnabledRunAppend(Step(s, a[0]).state, a[1..], b);
    }
  }

  /** While achievements load, the page offers neither a card nor "Back to Search": until
      the detail reply arrives no selection or going back happens, and the selection, the
      (empty) list and the loading flag stay as they are. So at most one detail request is
      ever in flight. */
  lemma {:induction false} LoadingBlocksNavigation(s: State, events: seq<Event>)
    requires s.selectedGame.Some? && s.achievementsLoading
    requires EnabledRun(s, events)
    requires forall i :: 0 <= i < |events| ==> !IsDetailReply(events[i])
    ensures forall i :: 0 <= i < |events| ==> !events[i].GameSelected? && !events[i].SelectionCleared?
    ensures Run(s, events).state.selectedGame == s.selectedGame
    ensures Run(s, events).state.achievements == s.achievements
    ensures Run(s, events).state.achievementsLoading
    decreases |events|
  {
    if |events| > 0 {
      var rest := events[1..];
      assert forall i :: 0 <= i < |rest| ==> rest[i] == events[i + 1];
      LoadingBlocksNavigation(Step(s, events[0]).state, rest);
      RunUnfold(s, events);
    }
  }

  /** Without a request tag the detail reply still always answers the game that asked:
      select `game`, then any enabled events up to its reply, and the reply's list is
      shown for `game`, with the header image merged into `game` when there is one. */
  lemma DetailLandsOnRequester(s: State, game: Game, middle: seq<Event>, list: Option<seq<Achievement>>, image: Option<string>)
    requires EnabledRun(s, [GameSelected(game)] + middle + [DetailSucceeded(list, image)])
    requires forall i :: 0 <= i < |middle| ==> !IsDetailReply(middle[i])
    ensures var t := Run(s, [GameSelected(game)] + middle + [DetailSucceeded(list, image)]).state;
      && t.selectedGame == Some(if image.Some? && image.value != "" then game.(headerImage := image) else game)
      && t.achievements == list.UnwrapOr([])
      && !t.achievementsLoading
  {
    var s1 := Step(s, GameSelected(game)).state;
    var events := [GameSelected(game)] + middle + [DetailSucceeded(list, image)];
    assert events == [GameSelected(game)] + (middle + [DetailSucceeded(list, image)]);
    RunPrepend(s, GameSelected(game), middle + [DetailSucceeded(list, image)]);
    assert EnabledRun(s1, middle + [DetailSucceeded(list, image)]) by {
      assert events[1..] == middle + [DetailSucceeded(list, image)];
    }
    EnabledRunAppend(s1, middle, [DetailSucceeded(list, image)]);
    LoadingBlocksNavigation(s1, middle);
    RunAppend(s1, middle, [DetailSucceeded(list, image)]);
    RunPrepend(Run(s1, middle).state, DetailSucceeded(list, image), []);
  }

  /** What the page's gating keeps true: a loading detail belongs to a selection and lists
      nothing yet, and achievements are listed only with a selection. */
  predicate Coherent(s: State) {
    && (s.achievementsLoading ==> s.selectedGame.Some? && s.achievements == [])
    && (s.achievements != [] ==> s.selectedGame.Some?)
  }

  lemma InitialCoherent()
    ensures Coherent(Initial)
  {
  }

  /** Every enabled event keeps the session coherent. */
  lemma StepKeepsCoherent(s: State, e: Event)
    requires Coherent(s) && Enabled(s, e)
    ensures Coherent(Step(s, e).state)
  {
  }

  /** Over any enabled run the session stays coherent: in particular achievements are
      never listed with nothing selected. */
  lemma {:induction false} RunKeepsCoherent(s: State, events: seq<Event>)
    requires Coherent(s) && EnabledRun(s, events)
    ensures Coherent(Run(s, events).state)
    decreases |events|
  {
    if |events| > 0 {
      StepKeepsCoherent(s, events[0]);
      RunKeepsCoherent(Step(s, events[0]).state, events[1..]);
      RunUnfold(s, events);
    }
  }

  /** Every game on offer, and the selected one, has a `name`. */
  predicate Named(s: State) {
    && (forall g :: g in s.searchResults ==> g.name.Some?)
    && (s.selectedGame.Some? ==> s.selectedGame.value.name.Some?)
  }

  /** A search reply whose games all have a `name`. */
  predicate NamedReply(e: Event) {
    e.SearchSucceeded? ==> forall g :: g in e.data ==> g.name.Some?
  }

  /** With named search replies, every enabled event keeps every offered and selected game
      named; the header-image merge keeps the name. */
  lemma StepKeepsNamed(s: State, e: Event)
    requires Named(s) && Coherent(s) && Enabled(s, e) && NamedReply(e)
    ensures Named(Step(s, e).state)
  {
  }

  /** Over any enabled run with named search replies, the guide never lacks a game name. */
  lemma {:induction false} RunKeepsNamed(s: State, events: seq<Event>)
    requires Named(s) && Coherent(s) && EnabledRun(s, events)
    requires forall i :: 0 <= i < |events| ==> NamedReply(events[i])
    ensures Named(Run(s, events).state)
    decreases |events|
  {
    if |events| > 0 {
      var rest := events[1..];
      assert forall i :: 0 <= i < |rest| ==> rest[i] == events[i + 1];
      StepKeepsNamed(s, events[0]);
      StepKeepsCoherent(s, events[0]);
      RunKeepsNamed(Step(s, events[0]).state, rest);
      RunUnfold(s, events);
    }
  }

  /** A query that is long enough untrimmed but too short trimmed is never searched,
      yet "No Games Found" is shown for it. */
  lemma ShortTrimmedQueryShowsNoGames(s: State, q: string)
    requires s.selectedGame.None? && !s.loading && s.error == "" && q != s.searchQuery
    requires Text.JsLength(Text.JsTrim(q)) < MinQueryLength <= Text.JsLength(q)
    ensures var t := Run(s, [QueryChanged(q), TimerElapsed]);
      t.requests == [] && t.state.searchResults == [] && Render(t.state).noGames
  {
    assert [QueryChanged(q), TimerElapsed] == [QueryChanged(q)] + [TimerElapsed];
    RunPrepend(s, QueryChanged(q), [TimerElapsed]);
  }

  /** " a" is such a query. */
  lemma SpaceThenLetterIsSuchAQuery()
    ensures Text.JsLength(Text.JsTrim(" a")) < MinQueryLength <= Text.JsLength(" a")
  {
    assert Text.JsTrim(" a") == Text.Trim("a", Text.IsJsWhitespace);
    assert Text.JsLength("a") == Text.JsLength("") + 1;
  }
}

=== FILE: session_view.dfy ===
/** What the App component renders for a session state: the conditions guarding each
    block of its markup, and the guide link an achievement card opens. */
module SessionView {
  import opened Wrappers
  import opened Session
  import Text
  import GuideLink
  import UriComponent

  /** Which blocks are on screen. */
  datatype Screen = Screen(
    errorBanner: bool,
    resultGrid: bool,
    searching: bool,
    loadingAchievements: bool,
    detail: bool,
    achievementGrid: bool,
    noAchievements: bool,
    noGames: bool)

  /** The render guards. The no-games block tests the UNTRIMMED query length, counted in
      UTF-16 code units as `length` does, while the debounce tests the trimmed one; the
      searching indicator only tests `loading`. */
  function Render(s: State): (v: Screen)
    // the result grid, the detail view and "No Games Found" never show together
    ensures !(v.resultGrid && v.detail) && !(v.resultGrid && v.noGames) && !(v.detail && v.noGames)
    // inside the detail view, exactly one of the achievement grid and its empty state
    ensures v.achievementGrid || v.noAchievements <==> v.detail
    ensures v.achievementGrid ==> !v.noAchievements
    ensures v.detail ==> (v.achievementGrid <==> |s.achievements| > 0)
    // the detail view and its loading indicator exclude each other
    ensures !(v.detail && v.loadingAchievements)
    ensures v.errorBanner <==> s.error != ""
    ensures v.noGames ==> !v.errorBanner && !v.searching
    // what each block waits for: results and no selection for the grid, a selection whose
    // achievements have arrived for the detail view, and for "No Games Found" an idle,
    // error-free page with no results and a query of two or more UTF-16 code units
    ensures v.resultGrid <==> s.selectedGame.None? && |s.searchResults| > 0
    ensures v.detail <==> s.selectedGame.Some? && !s.achievementsLoading
    ensures v.noGames <==> s.selectedGame.None? && !s.loading && s.searchResults == [] && s.error == ""
                           && Text.JsLength(s.searchQuery) >= MinQueryLength
    ensures v.searching <==> s.loading
    ensures v.loadingAchievements <==> s.achievementsLoading
  {
    var detail := s.selectedGame.Some? && !s.achievementsLoading;
    Screen(
      errorBanner := s.error != "",
      resultGrid := s.selectedGame.None? && |s.searchResults| > 0,
      searching := s.loading,
      loadingAchievements := s.achievementsLoading,
      detail := detail,
      achievementGrid := detail && |s.achievements| > 0,
      noAchievements := detail && |s.achievements| == 0,
      noGames := s.selectedGame.None? && !s.loading && Text.JsLength(s.searchQuery) >= MinQueryLength
                 && |s.searchResults| == 0 && s.error == "")
  }

  /** Clicking achievement card `i`: the guide link for its display name and the selected
      game's name (rendered "undefined" when the selected object has no name). */
  function GuideFor(s: State, i: nat): (url: string)
    requires Render(s).achievementGrid && i < |s.achievements|
    ensures |url| >= |GuideLink.SearchPrefix| && url[..|GuideLink.SearchPrefix|] == GuideLink.SearchPrefix
    ensures UriComponent.DecodeUriComponent(url[|GuideLink.SearchPrefix|..]) ==
      Some(GuideLink.GuideQuestion(s.achievements[i].displayName, s.selectedGame.value.name))
  {
    GuideLink.GuideUrl(s.achievements[i].displayName, s.selectedGame.value.name)
  }

  /** Whether the page can deliver `e` in state `s`. A card click needs the result grid
      and one of its games; "Back to Search" sits in the detail view; a detail reply
      comes only while its request is in flight, which `achievementsLoading` marks. The
      search box, the timeout and search replies are always possible. */
  predicate Enabled(s: State, e: Event) {
    match e
    case GameSelected(g) => Render(s).resultGrid && g in s.searchResults
    case SelectionCleared => Render(s).detail
    case DetailSucceeded(_, _) => s.achievementsLoading
    case DetailFailed(_) => s.achievementsLoading
    case _ => true
  }

  /** Every event of `events` is enabled in the state it arrives in. */
  predicate EnabledRun(s: State, events: seq<Event>)
    decreases |events|
  {
    |events| == 0 || (Enabled(s, events[0]) && EnabledRun(Step(s, events[0]).state, events[1..]))
  }
}

=== FILE: steam_data.dfy ===
/** The pure data shaping of backend/server.py, with every Steam HTTP exchange replaced
    by its decoded outcome: the store-search item filter of `search_steam_games`, and the
    schema and global-percentage assembly of `get_game_achievements`. Decoded JSON objects
    are records whose absent keys are `None`. */
module SteamData {
  import opened Wrappers
  import Text

  /** The slice bound of the store search: only the first twenty items are examined. */
  const MaxStoreResults: nat := 20

  /** One element of the store search's `items` list: its `type`, `id` and `name` keys. */
  datatype StoreItem = StoreItem(kind: Option<string>, id: Option<int>, name: Option<string>)

  /** The store-search exchange: status 200 with the decoded `items` value (None when the
      key is absent), or any other outcome (a non-200 status or a raised exception). */
  datatype StoreResponse = StoreOk(items: Option<seq<StoreItem>>) | StoreUnavailable

  /** `GameSearchResult`: an `{appid, name}` pair. */
  datatype GameHit = GameHit(appid: int, name: string)

  predicate IsApp(item: StoreItem) {
    item.kind == Some("app")
  }

  /** An item from which `GameSearchResult(appid=item['id'], name=item['name'])` can be built. */
  predicate IsComplete(item: StoreItem) {
    item.id.Some? && item.name.Some?
  }

  function HitOf(item: StoreItem): GameHit
    requires IsComplete(item)
  {
    GameHit(item.id.value, item.name.value)
  }

  /** The items the loop visits: `data.get('items', [])[:20]`, or none without a 200 reply. */
  function StoreWindow(response: StoreResponse): (w: seq<StoreItem>)
    ensures |w| <= MaxStoreResults
    ensures response.StoreOk? ==> w == Prefix(response.items.UnwrapOr([]), MaxStoreResults)
    ensures response.StoreUnavailable? ==> w == []
  {
    match response
    case StoreUnavailable => []
    case StoreOk(items) => Prefix(items.UnwrapOr([]), MaxStoreResults)
  }

  /** Python's slice `xs[:n]`. */
  function Prefix<T>(xs: seq<T>, n: nat): (p: seq<T>)
    ensures |p| <= n && |p| <= |xs| && p == xs[..|p|]
    ensures |p| == n || p == xs
  {
    if |xs| <= n then xs else xs[..n]
  }

  /** The hits built from the app items of `items`, in order; None when some app item
      lacks `id` or `name`, where the source's KeyError aborts the whole loop. */
  function AppHits(items: seq<StoreItem>): (r: Option<seq<GameHit>>)
    ensures r.Some? <==> forall i :: 0 <= i < |items| && IsApp(items[i]) ==> IsComplete(items[i])
    ensures r.Some? ==> |r.value| <= |items|
    decreases |items|
  {
    if |items| == 0 then Some([])
    else
      var item := items[0];
      if !IsApp(item) then AppHits(items[1..])
      else if !IsComplete(item) then None
      else match AppHits(items[1..])
        case None => None
        case Some(rest) => Some([HitOf(item)] + rest)
  }

  /** `search_steam_games`: the app hits among the first twenty items; an empty list for a
      failed exchange or when building a hit raises. */
  function SearchSteamGames(response: StoreResponse): (games: seq<GameHit>)
    ensures |games| <= MaxStoreResults
    ensures response.StoreUnavailable? ==> games == []
  {
    match AppHits(StoreWindow(response))
    case None => []
    case Some(hits) => hits
  }

  /** The positions in `items` of its app items, in increasing order. */
  function AppPositions(items: seq<StoreItem>): (pos: seq<nat>)
    ensures forall j :: 0 <= j < |pos| ==> pos[j] < |items|
    decreases |items|
  {
    if |items| == 0 then []
    else
      var rest := AppPositions(items[1..]);
      var shifted := seq(|rest|, j requires 0 <= j < |rest| => rest[j] + 1);
      if IsApp(items[0]) then [0] + shifted else shifted
  }

  /** The `j`-th hit is built from the item at the `j`-th app position. */
  lemma {:induction false} AppHitsAtPositions(items: seq<StoreItem>)
    requires AppHits(items).Some?
    ensures |AppPositions(items)| == |AppHits(items).value|
    ensures forall j :: 0 <= j < |AppPositions(items)| ==>
      IsApp(items[AppPositions(items)[j]]) && IsComplete(items[AppPositions(items)[j]])
      && AppHits(items).value[j] == HitOf(items[AppPositions(items)[j]])
    decreases |items|
  {
    if |items| > 0 {
      AppHitsAtPositions(items[1..]);
      var rest := AppPositions(items[1..]);
      forall j | 0 <= j < |rest|
        ensures items[rest[j] + 1] == items[1..][rest[j]]
      {
      }
    }
  }

  /** App positions strictly increase: the hits keep the store's order. */
  lemma {:induction false} AppPositionsIncrease(items: seq<StoreItem>)
    ensures forall j, j' :: 0 <= j < j' < |AppPositions(items)| ==> AppPositions(items)[j] < AppPositions(items)[j']
    decreases |items|
  {
    if |items| > 0 {
      AppPositionsIncrease(items[1..]);
    }
  }

  /** Every app item has its position among the app positions: none is dropped. */
  lemma {:induction false} AppPositionsCover(items: seq<StoreItem>, i: nat) returns (j: nat)
    requires i < |items| && IsApp(items[i])
    ensures j < |AppPositions(items)| && AppPositions(items)[j] == i
    decreases |items|
  {
    var rest := AppPositions(items[1..]);
    if i == 0 {
      j := 0;
    } else {
      assert items[1..][i - 1] == items[i];
      var k := AppPositionsCover(items[1..], i - 1);
      j := if IsApp(items[0]) then k + 1 else k;
    }
  }

  /** The store search keeps exactly the app items of the window, in their order: the
      hits are the items at the strictly increasing app positions, and every app item
      of the window is among them. */
  lemma AppHitsSubsequence(items: seq<StoreItem>)
    requires AppHits(items).Some?
    ensures var hits := AppHits(items).value;
      var pos := AppPositions(items);
      && |pos| == |hits|
      && (forall j :: 0 <= j < |pos| ==> IsApp(items[pos[j]]) && hits[j] == HitOf(items[pos[j]]))
      && (forall j, j' :: 0 <= j < j' < |pos| ==> pos[j] < pos[j'])
      && (forall i :: 0 <= i < |items| && IsApp(items[i]) ==> i in pos)
  {
    AppHitsAtPositions(items);
    AppPositionsIncrease(items);
    forall i | 0 <= i < |items| && IsApp(items[i])
      ensures i in AppPositions(items)
    {
      var j := AppPositionsCover(items, i);
    }
  }

  // ----- achievements -----

  /** Global unlock percentages are carried, never computed on. */
  type Percent = real

  /** One element of the schema's `availableGameStats.achievements` list. */
  datatype SchemaAchievement = SchemaAchievement(
    name: Option<string>,
    displayName: Option<string>,
    description: Option<string>,
    icon: Option<string>,
    icongray: Option<string>,
    hidden: Option<int>)

  /** The schema's `game` object: its `gameName`, and the achievement list under
      `availableGameStats` (None when either key is absent). */
  datatype GameSchema = GameSchema(gameName: Option<string>, achievements: Option<seq<SchemaAchievement>>)

  /** The schema exchange: status 200 with the `game` value (None when absent or
      empty), or any other outcome. */
  datatype SchemaResponse = SchemaOk(game: Option<GameSchema>) | SchemaUnavailable

  /** One element of `achievementpercentages.achievements`. */
  datatype PercentEntry = PercentEntry(name: Option<string>, percent: Option<Percent>)

  /** The percentage exchange: status 200 with the entry list (empty when either key
      is absent), or any other outcome. */
  datatype PercentResponse = PercentOk(entries: seq<PercentEntry>) | PercentUnavailable

  /** The `Achievement` model returned to clients. */
  datatype Achievement = Achievement(
    name: string,
    displayName: string,
    description: string,
    icon: string,
    icongray: string,
    hidden: int,
    percent: Option<Percent>)

  /** The `GameAchievements` model. */
  datatype GameAchievements = GameAchievements(appid: int, gameName: string, achievements: seq<Achievement>)

  /** An entry from which `ach['name']` and `ach['percent']` can both be read. */
  predicate IsWellFormed(e: PercentEntry) {
    e.name.Some? && e.percent.Some?
  }

  /** The entries the percentage loop stores before the first malformed one raises
      KeyError; the bare `except` keeps everything stored up to that point. */
  function UsablePrefix(es: seq<PercentEntry>): (p: seq<PercentEntry>)
    ensures |p| <= |es| && p == es[..|p|]
    ensures forall i :: 0 <= i < |p| ==> IsWellFormed(p[i])
    ensures |p| < |es| ==> !IsWellFormed(es[|p|])
    decreases |es|
  {
    if |es| == 0 || !IsWellFormed(es[0]) then [] else [es[0]] + UsablePrefix(es[1..])
  }

  /** The dictionary loop `achievement_percentages[ach['name']] = ach['percent']`, run
      from `acc` over `es` until the end or the first malformed entry. */
  function StorePercents(acc: map<string, Percent>, es: seq<PercentEntry>): (m: map<string, Percent>)
    ensures acc.Keys <= m.Keys
    decreases |es|
  {
    if |es| == 0 || !IsWellFormed(es[0]) then acc
    else StorePercents(acc[es[0].name.value := es[0].percent.value], es[1..])
  }

  /** `achievement_percentages` once the percentage exchange is over: empty unless it
      succeeded. */
  function PercentTable(response: PercentResponse): (m: map<string, Percent>)
    ensures response.PercentUnavailable? ==> m == map[]
  {
    match response
    case PercentUnavailable => map[]
    case PercentOk(es) => StorePercents(map[], es)
  }

  /** Entry `j` of `p` is the last one named `k`. */
  predicate IsLastNamed(p: seq<PercentEntry>, j: int, k: string)
    requires 0 <= j < |p|
  {
    p[j].name == Some(k) && forall j' :: j < j' < |p| ==> p[j'].name != Some(k)
  }

  /** A name no usable entry carries keeps whatever `acc` gave it. */
  lemma {:induction false} StorePercentsKeepsOthers(acc: map<string, Percent>, es: seq<PercentEntry>, k: string)
    requires forall j :: 0 <= j < |UsablePrefix(es)| ==> UsablePrefix(es)[j].name != Some(k)
    ensures Lookup(StorePercents(acc, es), k) == Lookup(acc, k)
    decreases |es|
  {
    if |es| > 0 && IsWellFormed(es[0]) {
      var p := UsablePrefix(es);
      var p' := UsablePrefix(es[1..]);
      assert p == [es[0]] + p';
      assert p[0].name != Some(k);
      forall j | 0 <= j < |p'|
        ensures p'[j].name != Some(k)
      {
        assert p'[j] == p[j + 1];
      }
      StorePercentsKeepsOthers(acc[es[0].name.value := es[0].percent.value], es[1..], k);
    }
  }

  /** The loop leaves a name mapped to the percent of the last usable entry carrying it:
      a later entry overwrites an earlier one. */
  lemma {:induction false} StorePercentsLastWins(acc: map<string, Percent>, es: seq<PercentEntry>, k: string, j: nat)
    requires j < |UsablePrefix(es)| && IsLastNamed(UsablePrefix(es), j, k)
    ensures Lookup(StorePercents(acc, es), k) == Some(UsablePrefix(es)[j].percent.value)
    decreases |es|
  {
    var p := UsablePrefix(es);
    var p' := UsablePrefix(es[1..]);
    var acc' := acc[es[0].name.value := es[0].percent.value];
    assert p == [es[0]] + p';
    if j > 0 {
      assert p[j] == p'[j - 1];
      forall j' | j - 1 < j' < |p'|
        ensures p'[j'].name != Some(k)
      {
        assert p'[j'] == p[j' + 1];
      }
      StorePercentsLastWins(acc', es[1..], k, j - 1);
    } else {
      forall j' | 0 <= j' < |p'|
        ensures p'[j'].name != Some(k)
      {
        assert p'[j'] == p[j' + 1];
      }
      StorePercentsKeepsOthers(acc', es[1..], k);
    }
  }

  /** With the percentage exchange answered, a name maps to a percent exactly when a
      usable entry carries it, and then to the last such entry's value: a repeated
      name is won by the later entry. */
  lemma PercentTableLastWins(es: seq<PercentEntry>, k: string)
    ensures k in PercentTable(PercentOk(es)) <==>
      exists j :: 0 <= j < |UsablePrefix(es)| && UsablePrefix(es)[j].name == Some(k)
    ensures forall j :: 0 <= j < |UsablePrefix(es)| && IsLastNamed(UsablePrefix(es), j, k) ==>
      PercentTable(PercentOk(es))[k] == UsablePrefix(es)[j].percent.value
  {
    var p := UsablePrefix(es);
    var m := PercentTable(PercentOk(es));
    assert m == StorePercents(map[], es);
    forall j | 0 <= j < |p| && IsLastNamed(p, j, k)
      ensures Lookup(m, k) == Some(p[j].percent.value)
    {
      StorePercentsLastWins(map[], es, k, j);
    }
    if exists j :: 0 <= j < |p| && p[j].name == Some(k) {
      var j := LastNamed(p, k);
      StorePercentsLastWins(map[], es, k, j);
    } else {
      StorePercentsKeepsOthers(map[], es, k);
    }
  }

  /** The position of the last entry of `p` named `k`. */
  function LastNamed(p: seq<PercentEntry>, k: string): (j: nat)
    requires exists j :: 0 <= j < |p| && p[j].name == Some(k)
    ensures j < |p| && IsLastNamed(p, j, k)
    decreases |p|
  {
    if p[|p| - 1].name == Some(k) then |p| - 1
    else
      var q := p[..|p| - 1];
      assert forall j :: 0 <= j < |q| ==> q[j] == p[j];
      LastNamed(q, k)
  }

  /** `percent=achievement_percentages.get(ach.get('name'))`: a schema entry without a
      `name` key looks up None, which is never a key of the table. */
  function PercentFor(a: SchemaAchievement, table: map<string, Percent>): Option<Percent> {
    match a.name
    case None => None
    case Some(n) => Lookup(table, n)
  }

  /** The achievement list built from the schema list: one entry per schema entry in
      the same order, absent text fields defaulting to "", an absent `hidden` to 0, and
      `percent` looked up by name. */
  function ParseAchievements(list: seq<SchemaAchievement>, table: map<string, Percent>): (r: seq<Achievement>)
    ensures |r| == |list|
    ensures forall i :: 0 <= i < |r| ==>
      && r[i].name == list[i].name.UnwrapOr("")
      && r[i].displayName == list[i].displayName.UnwrapOr("")
      && r[i].description == list[i].description.UnwrapOr("")
      && r[i].icon == list[i].icon.UnwrapOr("")
      && r[i].icongray == list[i].icongray.UnwrapOr("")
      && r[i].hidden == list[i].hidden.UnwrapOr(0)
      && r[i].percent == PercentFor(list[i], table)
    decreases |list|
  {
    if |list| == 0 then []
    else
      var a := list[0];
      [Achievement(a.name.UnwrapOr(""), a.displayName.UnwrapOr(""), a.description.UnwrapOr(""),
                   a.icon.UnwrapOr(""), a.icongray.UnwrapOr(""), a.hidden.UnwrapOr(0),
                   PercentFor(a, table))]
      + ParseAchievements(list[1..], table)
  }

  /** `game_data.get('gameName', f'Game {appid}')`. */
  function GameNameOf(appid: int, g: GameSchema): (name: string)
    ensures g.gameName.None? ==> name == "Game " + Text.ShowInt(appid)
    ensures g.gameName.Some? ==> name == g.gameName.value
  {
    g.gameName.UnwrapOr("Game " + Text.ShowInt(appid))
  }

  /** `get_game_achievements`: None exactly when the schema exchange failed or carried
      no game; otherwise the game's name (defaulted) and its achievement list, where a
      schema without achievements gives an empty list without consulting the
      percentages. */
  function GetGameAchievements(appid: int, schema: SchemaResponse, percents: PercentResponse): (r: Option<GameAchievements>)
    ensures r.None? <==> schema.SchemaUnavailable? || schema.game.None?
    ensures r.Some? ==>
      var g := schema.game.value;
      var list := g.achievements.UnwrapOr([]);
      && r.value.appid == appid
      && r.value.gameName == GameNameOf(appid, g)
      && (|list| == 0 ==> r.value.achievements == [])
      && (|list| > 0 ==> r.value.achievements == ParseAchievements(list, PercentTable(percents)))
  {
    match schema
    case SchemaUnavailable => None
    case SchemaOk(None) => None
    case SchemaOk(Some(g)) =>
      var list := g.achievements.UnwrapOr([]);
      if |list| == 0 then Some(GameAchievements(appid, GameNameOf(appid, g), []))
      else Some(GameAchievements(appid, GameNameOf(appid, g), ParseAchievements(list, PercentTable(percents))))
  }

  /** When the percentage exchange fails, every achievement's percent is None, while
      the list keeps the schema's length and order. */
  lemma UnavailablePercentsLeaveNone(appid: int, schema: SchemaResponse)
    requires schema.SchemaOk? && schema.game.Some?
    ensures var r := GetGameAchievements(appid, schema, PercentUnavailable);
      && r.Some?
      && |r.value.achievements| == |schema.game.value.achievements.UnwrapOr([])|
      && forall i :: 0 <= i < |r.value.achievements| ==> r.value.achievements[i].percent.None?
  {
  }

  /** A named schema entry receives the percent of the last usable percentage entry of
      the same name, and None when no usable entry carries that name. */
  lemma AchievementPercentFromLastEntry(appid: int, schema: SchemaResponse, es: seq<PercentEntry>, i: nat)
    requires schema.SchemaOk? && schema.game.Some?
    requires i < |schema.game.value.achievements.UnwrapOr([])|
    requires schema.game.value.achievements.UnwrapOr([])[i].name.Some?
    ensures var r := GetGameAchievements(appid, schema, PercentOk(es)).value.achievements;
      var k := schema.game.value.achievements.UnwrapOr([])[i].name.value;
      var p := UsablePrefix(es);
      && ((forall j :: 0 <= j < |p| ==> p[j].name != Some(k)) ==> r[i].percent.None?)
      && (forall j :: 0 <= j < |p| && IsLastNamed(p, j, k) ==> r[i].percent == Some(p[j].percent.value))
  {
    var k := schema.game.value.achievements.UnwrapOr([])[i].name.value;
    PercentTableLastWins(es, k);
  }
}

=== FILE: text.dfy ===
/** String helpers shared by the client and the server: the two trimming functions
    (JavaScript `String.prototype.trim` and Python `str.strip`), Python's `str.isdigit`
    restricted to ASCII, and decimal conversion in both directions (`int(s)`, `str(n)`). */
module Text {

  /** Code points removed by JavaScript's `trim`: the WhiteSpace and LineTerminator
      productions of ECMA-262 (TAB, LF, VT, FF, CR, SPACE, NBSP, ZWNBSP, the Zs
      category, LS and PS). */
  predicate IsJsWhitespace(c: char) {
    var n := c as int;
    || 9 <= n <= 13 || n == 0x20 || n == 0xA0 || n == 0xFEFF || n == 0x1680
    || 0x2000 <= n <= 0x200A || n == 0x2028 || n == 0x2029 || n == 0x202F
    || n == 0x205F || n == 0x3000
  }

  /** Code points for which Python's `str.isspace` holds, hence removed by `str.strip()`.
      Unlike JavaScript this includes the separators 0x1C-0x1F and NEL (0x85), and
      excludes ZWNBSP (0xFEFF). */
  predicate IsPyWhitespace(c: char) {
    var n := c as int;
    || 9 <= n <= 13 || 0x1C <= n <= 0x20 || n == 0x85 || n == 0xA0 || n == 0x1680
    || 0x2000 <= n <= 0x200A || n == 0x2028 || n == 0x2029 || n == 0x202F
    || n == 0x205F || n == 0x3000
  }

  /** `s` with every leading and trailing character satisfying `ws` removed. */
  function Trim(s: string, ws: char -> bool): (r: string)
    ensures |r| <= |s|
    decreases |s|
  {
    if |s| > 0 && ws(s[0]) then Trim(s[1..], ws)
    else if |s| > 0 && ws(s[|s| - 1]) then Trim(s[..|s| - 1], ws)
    else s
  }

  /** JavaScript `s.trim()`. */
  function JsTrim(s: string): (r: string)
    ensures |r| <= |s|
  {
    Trim(s, IsJsWhitespace)
  }

  /** Python `s.strip()`. */
  function PyStrip(s: string): (r: string)
    ensures |r| <= |s|
  {
    Trim(s, IsPyWhitespace)
  }

  /** The UTF-16 code units a code point takes: two for one outside the Basic
      Multilingual Plane (a surrogate pair), one otherwise. */
  function Utf16Units(c: char): nat {
    if c as int < 0x1_0000 then 1 else 2
  }

  /** JavaScript `s.length`: the number of UTF-16 code units, not of code points. */
  function JsLength(s: string): (n: nat)
    ensures |s| <= n <= 2 * |s|
    decreases |s|
  {
    if |s| == 0 then 0 else JsLength(s[..|s| - 1]) + Utf16Units(s[|s| - 1])
  }

  /** `s.length` agrees with the code-point count exactly when every code point of `s`
      lies in the Basic Multilingual Plane. */
  lemma {:induction false} JsLengthCountsPoints(s: string)
    ensures JsLength(s) == |s| <==> forall i :: 0 <= i < |s| ==> s[i] as int < 0x1_0000
    decreases |s|
  {
    if |s| > 0 {
      var init := s[..|s| - 1];
      JsLengthCountsPoints(init);
      assert forall i :: 0 <= i < |init| ==> init[i] == s[i];
    }
  }

  /** `r` is the slice of `s` starting at `a`, and everything of `s` outside it is `ws`. */
  ghost predicate CutAt(r: string, s: string, ws: char -> bool, a: int) {
    && 0 <= a <= |s| - |r| && r == s[a..a + |r|]
    && (forall i :: 0 <= i < a ==> ws(s[i]))
    && (forall i :: a + |r| <= i < |s| ==> ws(s[i]))
  }

  /** What trimming means: the result is a slice of the input, everything cut off
      either end is `ws`, and neither end of the result is `ws`. */
  lemma {:induction false} TrimIsCut(s: string, ws: char -> bool) returns (a: nat)
    ensures CutAt(Trim(s, ws), s, ws, a)
    ensures Trim(s, ws) == [] || (!ws(Trim(s, ws)[0]) && !ws(Trim(s, ws)[|Trim(s, ws)| - 1]))
    decreases |s|
  {
    var r := Trim(s, ws);
    if |s| > 0 && ws(s[0]) {
      var b := TrimIsCut(s[1..], ws);
      a := b + 1;
      forall i | a + |r| <= i < |s|
        ensures ws(s[i])
      {
        assert s[i] == s[1..][i - 1];
      }
      forall i | 0 < i < a
        ensures ws(s[i])
      {
        assert s[i] == s[1..][i - 1];
      }
      assert r == Trim(s[1..], ws);
      assert s[1..][b..b + |r|] == s[a..a + |r|];
    } else if |s| > 0 && ws(s[|s| - 1]) {
      a := TrimIsCut(s[..|s| - 1], ws);
      forall i | a + |r| <= i < |s| - 1
        ensures ws(s[i])
      {
        assert s[i] == s[..|s| - 1][i];
      }
      assert s[a..a + |r|] == s[..|s| - 1][a..a + |r|];
    } else {
      a := 0;
    }
  }

  /** Trimming is idempotent: a trimmed string has nothing left to trim. */
  lemma TrimIdempotent(s: string, ws: char -> bool)
    ensures Trim(Trim(s, ws), ws) == Trim(s, ws)
  {
    var _ := TrimIsCut(s, ws);
  }

  predicate IsAsciiDigit(c: char) {
    '0' <= c <= '9'
  }

  /** Python `s.isdigit()` over ASCII: non-empty and made of digits only. */
  predicate IsDigits(s: string) {
    |s| > 0 && forall i :: 0 <= i < |s| ==> IsAsciiDigit(s[i])
  }

  /** Python `int(s)` for a string of ASCII digits (leading zeros allowed). */
  function DigitsValue(s: string): (n: nat)
    requires forall i :: 0 <= i < |s| ==> IsAsciiDigit(s[i])
    decreases |s|
  {
    if |s| == 0 then 0
    else DigitsValue(s[..|s| - 1]) * 10 + DigitValue(s[|s| - 1])
  }

  function DigitValue(c: char): (d: nat)
    requires IsAsciiDigit(c)
  {
    c as int - '0' as int
  }

  function DigitChar(d: nat): (c: char)
    requires d < 10
    ensures IsAsciiDigit(c) && DigitValue(c) == d
  {
    ('0' as int + d) as char
  }

  /** Python `str(n)` for a natural number: shortest decimal numeral. */
  function ShowNat(n: nat): (s: string)
    ensures IsDigits(s)
    ensures |s| > 1 ==> s[0] != '0'
    decreases n
  {
    if n < 10 then [DigitChar(n)] else ShowNat(n / 10) + [DigitChar(n % 10)]
  }

  /** Python `str(i)` for any integer. */
  function ShowInt(i: int): (s: string)
    ensures |s| > 0
    ensures i >= 0 <==> s[0] != '-'
    ensures i < 0 ==> s == "-" + ShowNat(-i)
    ensures i >= 0 ==> s == ShowNat(i)
  {
    if i < 0 then "-" + ShowNat(-i) else ShowNat(i)
  }

  /** `int(str(n)) == n`: the numeral printed for a number reads back as that number. */
  lemma {:induction false} DigitsValueShowNat(n: nat)
    ensures DigitsValue(ShowNat(n)) == n
    decreases n
  {
    if n >= 10 {
      var s := ShowNat(n);
      assert s[..|s| - 1] == ShowNat(n / 10);
      DigitsValueShowNat(n / 10);
    }
  }
}

=== FILE: uri_component.dfy ===
/** JavaScript's `encodeURIComponent`: UTF-8 encode, then percent-encode every byte
    outside the unreserved set of section 2.3 of RFC 3986 extended with `! * ' ( )`,
    as `%` and two upper-case hex digits (section 2.1 of RFC 3986). The decoder
    is the inverse `decodeURIComponent` performs on such output. */
module UriComponent {
  import opened Wrappers
  import Utf8

  type Byte = Utf8.Byte

  /** Bytes `encodeURIComponent` copies unchanged. */
  predicate IsUnreservedByte(b: Byte) {
    || ('A' as int <= b <= 'Z' as int) || ('a' as int <= b <= 'z' as int)
    || ('0' as int <= b <= '9' as int)
    || b == '-' as int || b == '_' as int || b == '.' as int || b == '~' as int
    || b == '!' as int || b == '*' as int || b == '\'' as int || b == '(' as int || b == ')' as int
  }

  predicate IsUpperHexDigit(c: char) {
    '0' <= c <= '9' || 'A' <= c <= 'F'
  }

  /** The characters an encoded component can hold. */
  predicate IsEncodedChar(c: char) {
    c == '%' || (c as int < 128 && IsUnreservedByte(c as int))
  }

  function HexDigit(d: nat): (c: char)
    requires d < 16
    ensures IsUpperHexDigit(c)
  {
    if d < 10 then ('0' as int + d) as char else ('A' as int + d - 10) as char
  }

  /** Value of a hex digit in either case, as `decodeURIComponent` accepts. */
  function HexValue(c: char): (r: Option<nat>)
    ensures r.Some? ==> r.value < 16
  {
    if '0' <= c <= '9' then Some(c as int - '0' as int)
    else if 'A' <= c <= 'F' then Some(c as int - 'A' as int + 10)
    else if 'a' <= c <= 'f' then Some(c as int - 'a' as int + 10)
    else None
  }

  function EncodeByte(b: Byte): (r: string)
    ensures forall i :: 0 <= i < |r| ==> IsEncodedChar(r[i]) || IsUpperHexDigit(r[i])
    ensures IsUnreservedByte(b) <==> r == [b as char]
    ensures !IsUnreservedByte(b) <==> |r| == 3 && r[0] == '%'
  {
    if IsUnreservedByte(b) then [b as char] else ['%', HexDigit(b / 16), HexDigit(b % 16)]
  }

  function EncodeBytes(bs: seq<Byte>): (r: string)
    ensures |bs| <= |r| <= 3 * |bs|
    ensures forall i :: 0 <= i < |r| ==> IsEncodedChar(r[i]) || IsUpperHexDigit(r[i])
  {
    if |bs| == 0 then [] else EncodeByte(bs[0]) + EncodeBytes(bs[1..])
  }

  /** Percent-decoding: `%` must be followed by two hex digits; any other character
      stands for its own (ASCII) byte. */
  function DecodeBytes(s: string): Option<seq<Byte>>
    decreases |s|
  {
    if |s| == 0 then Some([])
    else if s[0] == '%' then
      if |s| < 3 then None
      else match (HexValue(s[1]), HexValue(s[2]))
        case (Some(hi), Some(lo)) =>
          (match DecodeBytes(s[3..])
           case None => None
           case Some(rest) => Some([hi * 16 + lo] + rest))
        case _ => None
    else if s[0] as int < 128 then
      match DecodeBytes(s[1..])
      case None => None
      case Some(rest) => Some([s[0] as int] + rest)
    else None
  }

  function EncodeUriComponent(s: string): (r: string)
    ensures forall i :: 0 <= i < |r| ==> IsEncodedChar(r[i]) || IsUpperHexDigit(r[i])
  {
    EncodeBytes(Utf8.Encode(s))
  }

  function DecodeUriComponent(s: string): Option<string> {
    match DecodeBytes(s)
    case None => None
    case Some(bs) => Utf8.Decode(bs)
  }

  lemma HexRoundTrip(d: nat)
    requires d < 16
    ensures HexValue(HexDigit(d)) == Some(d)
  {
  }

  /** Decoding one encoded byte in front of any text yields that byte in front of the
      text's decoding. */
  lemma DecodeEncodedByte(b: Byte, tail: string)
    ensures DecodeBytes(EncodeByte(b) + tail) ==
      match DecodeBytes(tail)
      case None => None
      case Some(rest) => Some([b] + rest)
  {
    var r := EncodeByte(b) + tail;
    if IsUnreservedByte(b) {
      assert r[1..] == tail;
    } else {
      HexRoundTrip(b / 16);
      HexRoundTrip(b % 16);
      assert r[3..] == tail;
    }
  }

  /** Percent-decoding undoes percent-encoding, byte for byte. */
  lemma {:induction false} DecodeEncodeBytes(bs: seq<Byte>)
    ensures DecodeBytes(EncodeBytes(bs)) == Some(bs)
    decreases |bs|
  {
    if |bs| > 0 {
      DecodeEncodeBytes(bs[1..]);
      DecodeEncodedByte(bs[0], EncodeBytes(bs[1..]));
      assert bs == [bs[0]] + bs[1..];
    }
  }

  /** `decodeURIComponent(encodeURIComponent(s)) == s` for every string. */
  lemma DecodeEncodeUriComponent(s: string)
    ensures DecodeUriComponent(EncodeUriComponent(s)) == Some(s)
  {
    DecodeEncodeBytes(Utf8.Encode(s));
    Utf8.DecodeEncode(s);
  }
}

=== FILE: utf8.dfy ===
/** UTF-8 (RFC 3629) encoding of Unicode scalar values, the first half of
    JavaScript's `encodeURIComponent`, with the strict decoder that inverts it. */
module Utf8 {
  import opened Wrappers

  type Byte = b: int | 0 <= b < 256

  predicate IsContinuation(b: Byte) {
    0x80 <= b < 0xC0
  }

  /** The one to four bytes of code point `c`, shortest form. */
  function EncodeChar(c: char): (bs: seq<Byte>)
    ensures 1 <= |bs| <= 4
    ensures |bs| == SequenceLength(bs[0])
    ensures forall i :: 1 <= i < |bs| ==> IsContinuation(bs[i])
  {
    var n := c as int;
    var q1 := n / 64;
    var q2 := q1 / 64;
    var q3 := q2 / 64;
    if n < 0x80 then [n]
    else if n < 0x800 then [0xC0 + q1, 0x80 + n % 64]
    else if n < 0x1_0000 then [0xE0 + q2, 0x80 + q1 % 64, 0x80 + n % 64]
    else [0xF0 + q3, 0x80 + q2 % 64, 0x80 + q1 % 64, 0x80 + n % 64]
  }

  /** Number of bytes announced by a lead byte; 0 when `b` cannot start a sequence
      (a continuation byte, an overlong two-byte lead, or a lead beyond U+10FFFF). */
  function SequenceLength(b: Byte): nat {
    if b < 0x80 then 1
    else if 0xC2 <= b < 0xE0 then 2
    else if 0xE0 <= b < 0xF0 then 3
    else if 0xF0 <= b <= 0xF4 then 4
    else 0
  }

  predicate IsScalarValue(n: int) {
    0 <= n < 0xD800 || 0xE000 <= n < 0x11_0000
  }

  /** The code point of one complete sequence, rejecting overlong forms, surrogates
      and values beyond U+10FFFF. */
  function DecodeSequence(bs: seq<Byte>): Option<char>
    requires 1 <= |bs| <= 4 && |bs| == SequenceLength(bs[0])
  {
    if exists i :: 1 <= i < |bs| && !IsContinuation(bs[i]) then None
    else
      var n: int :=
        if |bs| == 1 then bs[0] as int
        else if |bs| == 2 then (bs[0] as int - 0xC0) * 64 + (bs[1] as int - 0x80)
        else if |bs| == 3 then ((bs[0] as int - 0xE0) * 64 + (bs[1] as int - 0x80)) * 64 + (bs[2] as int - 0x80)
        else (((bs[0] as int - 0xF0) * 64 + (bs[1] as int - 0x80)) * 64 + (bs[2] as int - 0x80)) * 64 + (bs[3] as int - 0x80);
      var least: int := if |bs| == 1 then 0 else if |bs| == 2 then 0x80 else if |bs| == 3 then 0x800 else 0x1_0000;
      if least <= n && IsScalarValue(n) then Some(n as char) else None
  }

  function Encode(s: string): (bs: seq<Byte>)
    ensures |s| <= |bs| <= 4 * |s|
  {
    if |s| == 0 then [] else EncodeChar(s[0]) + Encode(s[1..])
  }

  function Decode(bs: seq<Byte>): Option<string>
    decreases |bs|
  {
    if |bs| == 0 then Some([])
    else
      var k := SequenceLength(bs[0]);
      if k == 0 || |bs| < k then None
      else match DecodeSequence(bs[..k])
        case None => None
        case Some(c) =>
          match Decode(bs[k..])
          case None => None
          case Some(rest) => Some([c] + rest)
  }

  /** Every scalar value's encoding decodes back to it. */
  lemma DecodeEncodeChar(c: char)
    ensures DecodeSequence(EncodeChar(c)) == Some(c)
  {
    var bs := EncodeChar(c);
    var n := c as int;
    assert forall i :: 1 <= i < |bs| ==> IsContinuation(bs[i]);
    if |bs| == 2 {
      assert (bs[0] as int - 0xC0) * 64 + (bs[1] as int - 0x80) == n;
    } else if |bs| == 3 {
      assert (bs[0] as int - 0xE0) * 64 + (bs[1] as int - 0x80) == n / 64 / 64 * 64 + n / 64 % 64 == n / 64;
    } else if |bs| == 4 {
      assert (bs[0] as int - 0xF0) * 64 + (bs[1] as int - 0x80) == n / 64 / 64;
      assert ((bs[0] as int - 0xF0) * 64 + (bs[1] as int - 0x80)) * 64 + (bs[2] as int - 0x80) == n / 64;
    }
  }

  /** Decoding the encoding of a string gives the string back. */
  lemma {:induction false} DecodeEncode(s: string)
    ensures Decode(Encode(s)) == Some(s)
    decreases |s|
  {
    if |s| > 0 {
      var head := EncodeChar(s[0]);
      var bs := Encode(s);
      assert bs == head + Encode(s[1..]);
      assert bs[..|head|] == head;
      assert bs[|head|..] == Encode(s[1..]);
      DecodeEncodeChar(s[0]);
      DecodeEncode(s[1..]);
      assert s == [s[0]] + s[1..];
    }
  }
}

=== FILE: wrappers.dfy ===
/** Optional values, standing in for JavaScript's null/undefined and Python's None. */
module Wrappers {

  datatype Option<+T> = None | Some(value: T) {

    /** The carried value, or `fallback` when there is none (JavaScript `x || fallback` on objects). */
    function UnwrapOr(fallback: T): T {
      match this
      case Some(v) => v
      case None => fallback
    }
  }

  /** Dictionary lookup with Python's `dict.get(key)` meaning: None for a missing key. */
  function Lookup<K, V>(m: map<K, V>, k: K): Option<V> {
    if k in m then Some(m[k]) else None
  }
}
